=== FILE: README.md ===
# EasyCov core in Dafny

EasyCov reports the test coverage of the lines a pull request changes. This
project models its two pure parts and proves properties about them.

* **The diff line mapper** (`DiffMapper` in `easycov/diff_mapper.py`) reads a
  unified diff and records, for every patched file, a list of breakpoint
  rows `(target line, source path, source line or None)`.
  * `_add_row_to_mapping` drops a row that the previous row already implies.
  * `from_patchset` walks the hunks with a source cursor and a target cursor.
    It rejects a patch whose hunks disagree with the running offset.
  * `__getitem__` binary-searches the rows to translate a line of the new file
    back to a line of the old one. It returns None for an added line and the
    identity for a file the diff does not touch.
* **The report readers** turn a parsed coverage report into a map from file to
  line key to coverage value. Each value is the largest value any record
  offers for that line, and never below 0. The readers are
  `Coverage.from_lcov` and `Coverage.from_xml` in `easycov/coverage.py`, plus
  the older `lcov_to_json` and `xml_to_json` in `easycov/__init__.py`.
  * Their file names are made relative to a root directory.
  * A Cobertura branch line's value is read from the text of its
    `condition-coverage` attribute. The pattern is `\d+%\s+\((\d+)/(\d+)\)`,
    matched at the start of the text only.

Modules:

* `Wrappers`: `Option` and `Result`.
* `Bisect`: Python's `bisect_right`, as a recursive function and as a loop.
* `DiffMapper` and `DiffMapperLemmas`: the row builder, the hunk walker, the
  lookup, and their properties.
* `EmptyRanges`: `from_patchset` with empty ranges read where they begin,
  the corrected counterpart of the hunk check.
* `Accumulation`: the running `max` from 0 shared by all readers.
* `Numerals`:
  * Python 2's ASCII `\d` and `\s`;
  * decimal values;
  * `int()` applied to an attribute string.
* `ConditionCoverage`: the `condition-coverage` pattern, read as a
  deterministic parser, with its inverse `Render`.
* `Documents`: the parsed inputs (LCOV records and the parts of the XML tree
  the readers visit), the `os.path` functions as parameters, and the
  exceptions a read can end in.
* `Collect`: the loop over groups of lines that both readers run.
* `Coverage`: `easycov/coverage.py`.
* `EasyCov`: `easycov/__init__.py`.

Values are exact `real`s. An XML line key is the raw `number` attribute
string (None when the attribute is absent). An LCOV line key is the parsed
integer. An exception is a `Failure` carrying a `ReadError` or a
`DiffError`. The first exception in document order is the one reported.

The model follows the code as written, also where it does something other
than what it evidently means:

* LCOV candidate values. Both LCOV readers store `max(0, min(hit, 0))`, which
  is always 0. A per-line value of 1 for a hit line and 0 for a missed one,
  as `min(hit, 1)` gives, is evidently what was meant. See "Findings".
* Sources in `Coverage.from_xml`. It takes the last `<source>` and never
  checks the root tag. Only `xml_to_json` refuses a second source, and only
  when the first has text other than "".
* Hunks with an empty side. `from_patchset` compares the hunk starts as the
  diff writes them, so it refuses a new file's `@@ -0,0 +1,N @@`. See
  "Findings".

## Model

| member | source | states |
|---|---|---|
| Bisect.BisectRightSplits | easycov/diff_mapper.py:94 | On sorted keys, `bisect_right` returns the split point: every key before it is ≤ the query and every key from it on is greater. |
| Bisect.BisectRightLoop | easycov/diff_mapper.py:94 | The halving loop returns the same index as the recursive search, and on sorted keys that index is the split point. |
| DiffMapper.AddRowSpec | easycov/diff_mapper.py:17-29 | An empty list always takes the row. The existing rows are never altered and the list grows by at most one row. The row is appended exactly when the list is empty or the row is not redundant after the last row. The no-two-adjacent-redundant-rows invariant is kept. |
| DiffMapper.CollapsedAppend | easycov/diff_mapper.py:22-29 | Appending a row that is not redundant after the last one keeps the list free of adjacent redundant rows. |
| DiffMapper.AddLineRowsExtends | easycov/diff_mapper.py:76-81 | Offering a hunk's lines keeps the earlier rows as a prefix, keeps a non-empty list non-empty, and keeps the list collapsed. |
| DiffMapper.WalkHunksExtends | easycov/diff_mapper.py:63-87 | A successful walk leaves a non-empty, collapsed list that extends the rows it started from. A failure reports a hunk whose source and target offsets from the cursors differ. |
| DiffMapper.PatchFileUpdates | easycov/diff_mapper.py:60-87 | One patched file adds its target path. It leaves every other path's rows alone. It extends the target's earlier rows into a non-empty collapsed list. |
| DiffMapper.PatchFilesExtends | easycov/diff_mapper.py:59-87 | After all files, the keys are the earlier keys plus every target path. Earlier rows stay as prefixes. Every new list is non-empty and collapsed. |
| DiffMapper.FromPatchSet | easycov/diff_mapper.py:53-88 | The mapping's keys are exactly the target paths, and every row list is non-empty and collapsed. |
| DiffMapper.LastAtMost | easycov/diff_mapper.py:94-95 | The index is that of the last row whose target line is ≤ the query, or 0 when there is none. |
| DiffMapper.GetInRows | easycov/diff_mapper.py:91-101 | No rows give the identity `(filename, line)`. Otherwise the answer is one row's translation: `(src, None)` for an addition row, else the row's source line shifted by the distance from the row. |
| DiffMapper.Get | easycov/diff_mapper.py:90-105 | A file the diff does not touch maps every line to itself. |
| DiffMapperLemmas.WalkHunksFailsIff | easycov/diff_mapper.py:63-83 | The walk fails exactly when some hunk's source start and target start lie at different distances from the cursors. The cursors are the previous hunk's start plus length, 0 before the first hunk. |
| DiffMapperLemmas.PatchFileFailsIff | easycov/diff_mapper.py:63-83 | One file section fails exactly when one of its hunks is inconsistent, whatever rows its target path already has. |
| DiffMapperLemmas.PatchFilesFailsIff | easycov/diff_mapper.py:60-83 | Building fails exactly when some file has an inconsistent hunk. |
| DiffMapperLemmas.FromPatchSetFailsIff | easycov/diff_mapper.py:53-83 | `from_patchset` raises exactly when some file has an inconsistent hunk. |
| DiffMapperLemmas.WalkHunksFromNothing | easycov/diff_mapper.py:63-75 | A walk from an empty list starts with the row `(0, source path, 0)`. |
| DiffMapperLemmas.PatchFilesFirstRow | easycov/diff_mapper.py:59-75 | The first file with a given target path puts `(0, its source path, 0)` first in that path's list, and later files keep it there. |
| DiffMapperLemmas.FromPatchSetFirstRow | easycov/diff_mapper.py:59-87 | In the built mapping, a target path's first row is `(0, source path, 0)` from the first file that patches it. |
| DiffMapperLemmas.AddRowSorted | easycov/diff_mapper.py:17-29 | A row whose target is at least every earlier target keeps the list sorted by target. |
| DiffMapperLemmas.AddLineRowsSorted | easycov/diff_mapper.py:76-81 | A hunk's lines, with targets inside the hunk's range and above the existing rows, keep the list sorted. |
| DiffMapperLemmas.HunkRowsSorted | easycov/diff_mapper.py:65-83 | The rows one well-formed hunk adds keep the list sorted and bounded by the new target cursor. |
| DiffMapperLemmas.WalkHunksSorted | easycov/diff_mapper.py:65-87 | Walking well-formed hunks keeps the list sorted. |
| DiffMapperLemmas.PatchFilesSorted | easycov/diff_mapper.py:59-87 | Files with well-formed hunks and distinct target paths give sorted lists. |
| DiffMapperLemmas.FromPatchSetSorted | easycov/diff_mapper.py:53-88 | When every hunk is well formed and the target paths are distinct, every row list of the built mapping is sorted by target line, as the binary search needs. |
| DiffMapperLemmas.GetIsLastAtMost | easycov/diff_mapper.py:94-101 | On sorted rows, the binary search with the index clamped at 0 translates by the last row whose target is ≤ the line. |
| DiffMapperLemmas.LastAtMostIsSplit | easycov/diff_mapper.py:94-95 | The split point of the target keys, minus one and clamped at 0, is the last row at or below the line. |
| DiffMapperLemmas.AddRowKeepsLookup | easycov/diff_mapper.py:18-28 | When the new row has the last row's source path, dropping a redundant row ("if the last row can be rewritten, do that instead") changes no lookup: the list answers every line as the list with the row appended would. |
| DiffMapperLemmas.AddRowKeepsLineLookup | easycov/diff_mapper.py:18-28 | Whatever the source paths, dropping a redundant row changes no looked-up line: every line gets the same source line as from the list with the row appended. |
| DiffMapperLemmas.AddRowLookupAtNewRow | easycov/diff_mapper.py:18-28 | When the new row has the last row's source path, a lookup at its target after adding it gives its path and its source line, or None for an addition row, whether or not the row was kept. |
| DiffMapperLemmas.AddRowLineAtNewRow | easycov/diff_mapper.py:18-28 | Whatever the source paths, a lookup at the new row's target gives its source line, or None for an addition row. |
| DiffMapperLemmas.AddRowDropsSource | easycov/diff_mapper.py:18-28 | A redundant row is dropped with its source path: a lookup at its target reports the last kept row's path, since the redundancy test compares line numbers only. |
| DiffMapperLemmas.ExampleLineRows | easycov/diff_mapper.py:76-81 | The hunk `@@ -10,3 +10,5 @@` with two added lines collapses to a row for the addition and a row for the shifted context. |
| DiffMapperLemmas.ExampleWalk | easycov/diff_mapper.py:63-87 | The walk over that hunk ends with three rows; the trailing row is redundant and dropped. |
| DiffMapperLemmas.ExampleBuild | easycov/diff_mapper.py:53-88 | The one-file diff builds exactly those rows for its target path. |
| DiffMapperLemmas.ExampleLookups | easycov/diff_mapper.py:94-101 | On those rows, line 13 comes from source line 11 and line 11 is new. |
| DiffMapperLemmas.InsertionExample | tests/test_diff_mapper.py:23-25 | A shifted line maps to its old line number, an added line maps to None, and an untouched file maps to itself. |
| EmptyRanges.IntendedAgreesWithoutEmptyRanges | easycov/diff_mapper.py:66-83 | Where no hunk has an empty side, the corrected reading builds exactly what `from_patchset` builds. |
| EmptyRanges.IntendedFromPatchSetFailsIff | easycov/diff_mapper.py:66-71 | The corrected reading fails exactly when some file has a hunk that is inconsistent once its empty ranges are moved to where they begin. |
| EmptyRanges.NewFileRejected | easycov/diff_mapper.py:66-71 | As written, the section `@@ -0,0 +1,N @@` of a new file is refused, for every N. |
| EmptyRanges.NewFileRows | easycov/diff_mapper.py:63-87 | Read correctly, a new file of N lines gets the opening row, one addition row at line 1, and the trailing row at line N + 1. |
| EmptyRanges.NewFileMapsToNone | easycov/diff_mapper.py:53-101 | Read correctly, a new file builds, and each of its N lines maps to (source, None). |
| EmptyRanges.BareInsertionRejected | easycov/diff_mapper.py:66-71 | As written, the context-free insertion `@@ -5,0 +6,2 @@` is refused. |
| EmptyRanges.BareInsertionLookups | easycov/diff_mapper.py:53-101 | Read correctly, that insertion keeps lines before 6, makes lines 6 and 7 new, and sends every later line back by 2. |
| Accumulation.Max | easycov/coverage.py:54-56 | `max` is at least both arguments and is one of them. |
| Accumulation.Put | easycov/coverage.py:54-56 | One update stores the max of the stored value (0 when missing) and the candidate. Every other (file, key) keeps its presence and value. |
| Accumulation.AccumulateIsMax | easycov/coverage.py:46-60 | A (file, key) is present exactly when some entry names it. Its value is the maximum of 0 and every value offered for it. |
| Accumulation.AccumulateFiles | easycov/coverage.py:46-60 | A file is present exactly when some entry is for it. |
| Accumulation.AccumulateOrderIndependent | easycov/coverage.py:46-60 | The report depends only on which entries there are, not on their order or repetition. |
| Accumulation.AccumulatePermutation | easycov/coverage.py:46-60 | Any permutation of the entries gives the same report. |
| Accumulation.AccumulateNonNegative | easycov/coverage.py:22-34 | Starting every value at `Fraction()` = 0 means no stored value is negative. |
| Numerals.DigitRun | easycov/coverage.py:53 | The run is the longest prefix of ASCII digits: all digits, followed by a non-digit or the end. |
| Numerals.SpaceRun | easycov/coverage.py:53 | The run is the longest prefix of `\s` characters (space, tab, newline, return, vertical tab, form feed). |
| Numerals.DigitRunOf | easycov/coverage.py:53 | Digits followed by a non-digit are read as exactly that run. |
| Numerals.SpaceRunOf | easycov/coverage.py:53 | Whitespace followed by a non-space is read as exactly that run. |
| Numerals.DecimalValueOfShowNat | easycov/coverage.py:56 | `int()` of a number's decimal spelling is the number. |
| Numerals.ParseIntShowInt | easycov/coverage.py:60 | `int(str(n)) == n`, also with surrounding whitespace, for negative `n` too. |
| Numerals.ParseIntSpaceAfterSign | easycov/coverage.py:60 | `int()` allows whitespace between the sign and the digits: "- 5" reads -5 and "+ 5" reads 5. |
| Numerals.ParseIntBlank | easycov/coverage.py:60 | `int()` of blank text, the empty string included, raises. |
| ConditionCoverage.Cut | easycov/coverage.py:53 | A cut gives a non-empty digit run, the stop character, and the text after it, and these pieces concatenate back to the input. |
| ConditionCoverage.CutOf | easycov/coverage.py:53 | Digits, then the stop character, then any text: the cut gives back exactly those pieces. |
| ConditionCoverage.CutSpace | easycov/coverage.py:53 | The same for a non-empty whitespace run. |
| ConditionCoverage.CutSpaceOf | easycov/coverage.py:53 | The same for a whitespace run. |
| ConditionCoverage.Match | easycov/coverage.py:53 | A match splits the text into digits, '%', whitespace, '(', digits, '/', digits, ')' and any trailing text. |
| ConditionCoverage.MatchRender | easycov/coverage.py:53 | Every text of that shape matches, and the groups are exactly its two digit runs; trailing text is ignored. |
| ConditionCoverage.MatchIff | easycov/coverage.py:53 | A text matches with given pieces if and only if the pieces are well formed and concatenate to the text. |
| ConditionCoverage.MatchNeedsPercent | easycov/coverage.py:53 | Text without a '%', the empty attribute included, does not match. |
| ConditionCoverage.MatchWritten | easycov/coverage.py:53-56 | The attribute "P% (X/Y)" a coverage tool writes matches, with groups X and Y. |
| Collect.LineEntries | easycov/coverage.py:49-60 | A group's lines give one entry each, in order, with the group's path, the line's key and the line's value. The read fails exactly when some line's value raises. |
| Collect.Entries | easycov/coverage.py:46-60 | Reading the groups fails exactly when some group's path, or one of its lines' values, raises. |
| Collect.EntriesMembers | easycov/coverage.py:46-60 | A read that gets through yields exactly one entry per line of every group. |
| Collect.ReportOfLines | easycov/coverage.py:46-60 | The report holds exactly the (file, key) pairs of the lines read. Each holds the maximum of 0 and those lines' values. |
| Collect.ReportOfSameGroups | easycov/coverage.py:46-60 | Reading the same groups in another order, or some twice, builds the same report. |
| Collect.LineEntriesAgree | easycov/__init__.py:48-63 | Two line readers that agree wherever the second gets through read a group identically. |
| Collect.EntriesAgree | easycov/__init__.py:45-63 | The same over all groups. |
| Coverage.RelativeFilename | easycov/coverage.py:12-18 | No root or an empty root keeps the name. A ValueError from `relpath` propagates. A relative path that does not start with ".." is the result. One that does, `..foo` included, keeps the name. |
| Coverage.RelativeFilenameSameFile | easycov/coverage.py:12-18 | When `relpath` inverts `join`, the name read always names the same file: the name as given, or a path inside the root that joins back to it. |
| Coverage.FromLcov | easycov/coverage.py:24-35 | The LCOV read fails exactly when relativising the name of some record that has lines raises. |
| Coverage.IntendedFromLcov | easycov/coverage.py:32-34 | The corrected read fails exactly when the as-written one does. |
| Coverage.FromLcovAllZero | easycov/coverage.py:29-34 | As written, every line of every record is present and every stored value is 0, whatever the hit count. |
| Coverage.HitLineReadsZero | easycov/coverage.py:32-34 | For the trace `SF:a.py`, `DA:5,3`, `DA:6,0`, the as-written reader stores `{5: 0, 6: 0}` and the corrected one `{5: 1, 6: 0}`. |
| Coverage.IntendedFromLcovHit | easycov/coverage.py:32-34 | With `min(hit, 1)`, a line stores 1 exactly when some record hit it, and 0 otherwise. |
| Coverage.CoveredFraction | easycov/coverage.py:53-56 | The value exists exactly when the pattern matches and the condition total is not 0. It is then the matched covered count over the matched total, and never negative. |
| Coverage.Ratio | easycov/coverage.py:56 | The exact fraction times the total gives back the covered count. |
| Coverage.LineValue | easycov/coverage.py:49-60 | A branch line without the attribute raises. A branch line with the attribute reads exactly when the pattern matches it with a total Y that is not 0, and then reads X/Y for the groups it matched. Any other line reads its hit count. |
| Coverage.LineValueMatched | easycov/coverage.py:49-60 | A branch line whose attribute is any well-formed match, in any spacing and with any leading zeros, reads covered / total when the total is not 0, and raises when it is 0. |
| Coverage.LineValueWritten | easycov/coverage.py:50-56 | A branch line with "P% (X/Y)…" and Y > 0 stores exactly X/Y. |
| Coverage.LineValueHits | easycov/coverage.py:57-60 | A non-branch line with `hits` spelling n stores n, even above 1 or below 0. |
| Coverage.XmlLineExamples | easycov/coverage.py:49-60 | hits="4" stores 4 and condition-coverage="50% (1/2)" stores 1/2. |
| Coverage.FromXmlFailsIff | easycov/coverage.py:37-61 | `from_xml` raises exactly when some class's path or some line's value raises. The root tag plays no part. |
| Coverage.FromXmlLines | easycov/coverage.py:45-61 | The report holds exactly the (file, number) pairs of the class lines. Each holds the maximum of 0 and those lines' values. |
| Coverage.FromXmlClassOrder | easycov/coverage.py:46-60 | The order of the classes, and repeats among them, do not change the report. |
| Coverage.FromXmlNonNegative | easycov/coverage.py:54-60 | No stored XML value is negative, even for negative hit counts. |
| EasyCov.RelativeFilename | easycov/__init__.py:10-19 | Like the newer rule, except that a ValueError from `relpath` keeps the name. It never raises. A relative path that does not start with ".." is the result, and no other result starting with ".." than the name itself is possible. |
| EasyCov.RelativeFilenameSameFile | easycov/__init__.py:10-19 | When `relpath` inverts `join`, the name read always names the same file: the name as given, or a path inside the root that joins back to it. |
| EasyCov.RelativeFilenameFallback | easycov/__init__.py:13-19 | Where the newer rule gets through, the two agree. Where it raises, this one keeps the name. |
| EasyCov.LcovToJsonAllZero | easycov/__init__.py:21-31 | `lcov_to_json` holds every line of every record, and every value is 0. |
| EasyCov.LcovToJsonAgrees | easycov/__init__.py:21-31 | Whenever `Coverage.from_lcov` gets through, it builds the same report as `lcov_to_json`. |
| EasyCov.SourceDir | easycov/__init__.py:38-42 | The source loop raises exactly when some source other than the last has text other than "". Otherwise it yields the last source's text, as `Coverage.from_xml` does. |
| EasyCov.LineValue | easycov/__init__.py:48-63 | A branch line with a missing or empty attribute raises. Otherwise a line gets through exactly when it does in `Coverage.from_xml`, and with the same value. |
| EasyCov.XmlToJson | easycov/__init__.py:33-64 | A root tag other than `coverage` raises. A read that gets through passed the source check. |
| EasyCov.XmlToJsonFailsIff | easycov/__init__.py:33-64 | `xml_to_json` raises exactly when the root tag is wrong, or a source follows one with non-empty text, or some class lacks a filename or a usable source text, or some line's value raises. |
| EasyCov.XmlToJsonLines | easycov/__init__.py:44-64 | The report holds exactly the (file, number) pairs of the class lines, each with the maximum of 0 and their values. |
| EasyCov.XmlToJsonAgrees | easycov/__init__.py:33-64 | When `relpath` never raises, `Coverage.from_xml` builds the same report from every document `xml_to_json` accepts. |
| EasyCov.XmlToJsonClassOrder | easycov/__init__.py:45-63 | The order of the classes, and repeats among them, do not change the report. |
| EasyCov.XmlToJsonNonNegative | easycov/__init__.py:44-63 | No stored value is negative. |

## Left out

- `os.path.relpath` and `os.path.join` are parameters (`Documents.Paths`). Their results depend on the working directory and on path normalisation. A `relpath` that raises ValueError is None. `join` gets the source text as an Option, since an empty `<source/>` has none, and returns None where it raises. Python 2's `posixpath.join` raises on a None source text unless the filename is absolute. A None filename always raises, so that case is fixed in the model.
- The unidiff, `lcovparse` and ElementTree parsers. Their outputs are the input datatypes: `PatchedFile`/`Hunk`/`HunkLine`, `LcovRecord`/`LcovLine`, and `XmlDocument`/`XmlClass`/`XmlLine`. Reading files and strings (`from_filename`, `from_string`, `ET.parse`, `open`) is I/O.
- Floating point: `to_json`'s `float(x)` and the true division in `xml_to_json` are exact `real`s here, and rounding is not modelled.
- `to_json`, `get_mapping` and `__repr__` are JSON or text output.
- action.py is CI orchestration: git, downloads, subprocesses, environment and colouring.
- `Hits`, the binary codec, merging, `get_ratio` and `from_json` are not part of this model; no shown file defines them.
- The defaultdict side effect of `self._mapping[filename]` creating an empty list on lookup is not modelled, since it changes no answer. `Get` reads a missing file as having no rows.
- Coverage.LcovGroups: `_relative_filename` runs once per record that has lines, not once per line. Since `relpath` is a function of its arguments, this gives the same names and the same exceptions.
- Python's exception types (TypeError, AttributeError, ZeroDivisionError, ValueError) and their messages become `ReadError` cases. Each case names the condition that raised, not the Python type.
- Numerals.ParseInt: only byte-string attributes are modelled. For a non-ASCII attribute ElementTree returns a unicode value, and `int()` of that also accepts non-ASCII decimal digits and Unicode whitespace.
- Python's ordering of `max` between `int`, `Fraction` and `float` is exact comparison of reals.
- DiffMapperLemmas.AddRowKeepsLookup: the full (path, line) answer is promised only when the new row has the last row's source path. With different paths the dropped row's path is lost (DiffMapperLemmas.AddRowDropsSource). DiffMapperLemmas.AddRowKeepsLineLookup states the line part without that condition.
- DiffMapperLemmas.AddRowLookupAtNewRow: likewise needs the last row's source path. DiffMapperLemmas.AddRowLineAtNewRow states the line part without it. Within one file section all rows share a source path, so the condition can fail only for two sections with the same target path.

## Findings

| source | as written | input that shows it | evidently intended | confidence | as-written member | corrected member |
|---|---|---|---|---|---|---|
| easycov/diff_mapper.py:66-71 | the hunk check compares `source_start` and `target_start` as the diff writes them. A unified diff writes an empty range's start as the line before it, so the starts of a hunk with an empty side are one apart | a new file's section `@@ -0,0 +1,2 @@` raises ValueError, since 0 - 0 != 1 - 0. So does the context-free insertion `@@ -5,0 +6,2 @@` | an empty range read as starting one line later, so a new file builds and its lines map to None | medium; not executed | EmptyRanges.NewFileRejected | EmptyRanges.NewFileMapsToNone |
| easycov/coverage.py:32-34 | the LCOV candidate is `min(line['hit'], 0)`, so after `max` with the default 0 every LCOV line is stored as 0 | the trace `SF:a.py`, `DA:5,3`, `DA:6,0` stores `{5: 0, 6: 0}` | `min(line['hit'], 1)`: a hit line stores 1 and an unhit line stores 0, giving `{5: 1, 6: 0}` | high; not executed | Coverage.HitLineReadsZero | Coverage.IntendedFromLcovHit |

=== FILE: accumulate.dfy ===
/** The accumulation both report readers share: a two-level map from file to
    line key to value, updated by `r[file][key] = max(r[file][key], value)`
    where a missing entry reads as 0 (a `defaultdict` of `Fraction()`). */
module Accumulation {

  /** One candidate value for one line of one file. */
  datatype Entry<K> = Entry(file: string, key: K, value: real)

  type Report<K> = map<string, map<K, real>>

  function Max(a: real, b: real): (m: real)
    ensures a <= m && b <= m
    ensures m == a || m == b
  {
    if b > a then b else a
  }

  predicate Present<K(==,!new)>(r: Report<K>, file: string, key: K) {
    file in r && key in r[file]
  }

  /** What reading `r[file][key]` yields: the stored value, or the default 0. */
  function Stored<K(==,!new)>(r: Report<K>, file: string, key: K): real {
    if Present(r, file, key) then r[file][key] else 0.0
  }

  /** One update `r[file][key] = max(r[file][key], value)`. The key becomes
      present, and every other (file, key) keeps its presence and value. */
  function Put<K(==,!new)>(r: Report<K>, e: Entry<K>): (r': Report<K>)
    ensures Present(r', e.file, e.key)
    ensures r'[e.file][e.key] == Max(Stored(r, e.file, e.key), e.value)
    ensures forall f :: f in r ==> f in r'
    ensures forall f, k :: (f != e.file || k != e.key) ==>
              (Present(r', f, k) <==> Present(r, f, k)) && Stored(r', f, k) == Stored(r, f, k)
  {
    var row := if e.file in r then r[e.file] else map[];
    r[e.file := row[e.key := Max(Stored(r, e.file, e.key), e.value)]]
  }

  /** The updates for `es`, in order, starting from an empty report. */
  function Accumulate<K(==,!new)>(es: seq<Entry<K>>): Report<K>
    decreases |es|
  {
    if es == [] then map[] else Put(Accumulate(es[..|es| - 1]), es[|es| - 1])
  }

  predicate Matches<K(==,!new)>(e: Entry<K>, file: string, key: K) {
    e.file == file && e.key == key
  }

  /** Some entry of `es` is for (file, key). */
  ghost predicate Mentions<K(!new)>(es: seq<Entry<K>>, file: string, key: K) {
    exists i :: 0 <= i < |es| && Matches(es[i], file, key)
  }

  /** `v` is the maximum of 0 and the values `es` offers for (file, key): at
      least 0, at least each of them, and 0 or one of them. */
  ghost predicate IsMaxFromZero<K(!new)>(v: real, es: seq<Entry<K>>, file: string, key: K) {
    && 0.0 <= v
    && (forall i :: 0 <= i < |es| && Matches(es[i], file, key) ==> es[i].value <= v)
    && (v == 0.0 || exists i :: 0 <= i < |es| && Matches(es[i], file, key) && es[i].value == v)
  }

  /** The accumulated report holds exactly the (file, key) pairs some entry
      names, each with the maximum of 0 and all values offered for it. */
  lemma {:induction false} AccumulateIsMax<K(!new)>(es: seq<Entry<K>>, file: string, key: K)
    ensures Present(Accumulate(es), file, key) <==> Mentions(es, file, key)
    ensures Present(Accumulate(es), file, key) ==> IsMaxFromZero(Accumulate(es)[file][key], es, file, key)
    ensures !Present(Accumulate(es), file, key) ==> Stored(Accumulate(es), file, key) == 0.0
    decreases |es|
  {
    if es != [] {
      var init, e := es[..|es| - 1], es[|es| - 1];
      assert es == init + [e];
      AccumulateIsMax(init, file, key);
      MentionsSnoc(init, e, file, key);
      var r := Accumulate(init);
      if Matches(e, file, key) {
        if !Present(r, file, key) {
          NoMentionIsMaxZero(init, file, key);
        }
        IsMaxSnocMatch(Stored(r, file, key), init, e, file, key);
      } else if Present(r, file, key) {
        IsMaxSnocOther(r[file][key], init, e, file, key);
      }
    }
  }

  /** An entry appended at the end is mentioned exactly when it matches. */
  lemma MentionsSnoc<K(!new)>(init: seq<Entry<K>>, e: Entry<K>, file: string, key: K)
    ensures Mentions(init + [e], file, key) <==> Mentions(init, file, key) || Matches(e, file, key)
  {
    var es := init + [e];
    if Mentions(init, file, key) {
      var i :| 0 <= i < |init| && Matches(init[i], file, key);
      assert es[i] == init[i];
    }
    if Matches(e, file, key) {
      assert es[|init|] == e;
    }
    if Mentions(es, file, key) && !Matches(e, file, key) {
      var i :| 0 <= i < |es| && Matches(es[i], file, key);
      assert i < |init| && es[i] == init[i];
    }
  }

  /** With no entry for (file, key), the maximum from zero is 0. */
  lemma NoMentionIsMaxZero<K(!new)>(es: seq<Entry<K>>, file: string, key: K)
    requires !Mentions(es, file, key)
    ensures IsMaxFromZero(0.0, es, file, key)
  {
  }

  /** Appending an entry for another (file, key) keeps the maximum. */
  lemma IsMaxSnocOther<K(!new)>(v: real, init: seq<Entry<K>>, e: Entry<K>, file: string, key: K)
    requires !Matches(e, file, key) && IsMaxFromZero(v, init, file, key)
    ensures IsMaxFromZero(v, init + [e], file, key)
  {
    var es := init + [e];
    forall i | 0 <= i < |es| && Matches(es[i], file, key) ensures es[i].value <= v {
      assert i < |init| && es[i] == init[i];
    }
    if v != 0.0 {
      var i :| 0 <= i < |init| && Matches(init[i], file, key) && init[i].value == v;
      assert es[i] == init[i];
    }
  }

  /** Appending an entry for (file, key) raises the maximum to that entry's
      value when it is larger. */
  lemma IsMaxSnocMatch<K(!new)>(v: real, init: seq<Entry<K>>, e: Entry<K>, file: string, key: K)
    requires Matches(e, file, key) && IsMaxFromZero(v, init, file, key)
    ensures IsMaxFromZero(Max(v, e.value), init + [e], file, key)
  {
    var es, w := init + [e], Max(v, e.value);
    forall i | 0 <= i < |es| && Matches(es[i], file, key) ensures es[i].value <= w {
      if i < |init| {
        assert es[i] == init[i];
      }
    }
    if w == e.value {
      assert es[|init|] == e;
    } else if v != 0.0 {
      var i :| 0 <= i < |init| && Matches(init[i], file, key) && init[i].value == v;
      assert es[i] == init[i];
    }
  }

  /** A file appears in the report exactly when some entry is for it. */
  lemma {:induction false} AccumulateFiles<K(!new)>(es: seq<Entry<K>>, file: string)
    ensures file in Accumulate(es) <==> exists i :: 0 <= i < |es| && es[i].file == file
    decreases |es|
  {
    if es != [] {
      var init := es[..|es| - 1];
      AccumulateFiles(init, file);
      assert forall i :: 0 <= i < |init| ==> init[i] == es[i];
      if file in Accumulate(init) {
        var i :| 0 <= i < |init| && init[i].file == file;
        assert es[i].file == file;
      }
      if exists i :: 0 <= i < |es| && es[i].file == file {
        var i :| 0 <= i < |es| && es[i].file == file;
        if i < |init| {
          assert init[i].file == file;
        }
      }
    }
  }

  /** The maximum from zero is determined by the set of values offered. */
  lemma MaxFromZeroUnique<K(!new)>(v: real, es: seq<Entry<K>>, w: real, fs: seq<Entry<K>>, file: string, key: K)
    requires forall e :: e in es <==> e in fs
    requires IsMaxFromZero(v, es, file, key) && IsMaxFromZero(w, fs, file, key)
    ensures v == w
  {
    if v != 0.0 {
      var i :| 0 <= i < |es| && Matches(es[i], file, key) && es[i].value == v;
      assert es[i] in fs;
      var j :| 0 <= j < |fs| && fs[j] == es[i];
    }
    if w != 0.0 {
      var j :| 0 <= j < |fs| && Matches(fs[j], file, key) && fs[j].value == w;
      assert fs[j] in es;
      var i :| 0 <= i < |es| && es[i] == fs[j];
    }
  }

  /** The result does not depend on the order of the entries, nor on how often
      each is repeated: only on which entries there are. */
  lemma AccumulateOrderIndependent<K(!new)>(es: seq<Entry<K>>, fs: seq<Entry<K>>)
    requires forall e :: e in es <==> e in fs
    ensures Accumulate(es) == Accumulate(fs)
  {
    var a, b := Accumulate(es), Accumulate(fs);
    forall file ensures file in a <==> file in b {
      SameFiles(es, fs, file);
    }
    forall file | file in a ensures a[file] == b[file] {
      forall key ensures key in a[file] <==> key in b[file] {
        SamePresence(es, fs, file, key);
      }
      forall key | key in a[file] ensures a[file][key] == b[file][key] {
        SameValue(es, fs, file, key);
      }
    }
  }

  /** Entry sequences with the same members name the same files. */
  lemma SameFiles<K(!new)>(es: seq<Entry<K>>, fs: seq<Entry<K>>, file: string)
    requires forall e :: e in es <==> e in fs
    ensures file in Accumulate(es) <==> file in Accumulate(fs)
  {
    AccumulateFiles(es, file);
    AccumulateFiles(fs, file);
    if exists i :: 0 <= i < |es| && es[i].file == file {
      var i :| 0 <= i < |es| && es[i].file == file;
      assert es[i] in fs;
      var j :| 0 <= j < |fs| && fs[j] == es[i];
    }
    if exists j :: 0 <= j < |fs| && fs[j].file == file {
      var j :| 0 <= j < |fs| && fs[j].file == file;
      assert fs[j] in es;
      var i :| 0 <= i < |es| && es[i] == fs[j];
    }
  }

  /** Entry sequences with the same members make the same (file, key) pairs
      present. */
  lemma SamePresence<K(!new)>(es: seq<Entry<K>>, fs: seq<Entry<K>>, file: string, key: K)
    requires forall e :: e in es <==> e in fs
    ensures Present(Accumulate(es), file, key) <==> Present(Accumulate(fs), file, key)
  {
    AccumulateIsMax(es, file, key);
    AccumulateIsMax(fs, file, key);
    if Mentions(es, file, key) {
      var i :| 0 <= i < |es| && Matches(es[i], file, key);
      assert es[i] in fs;
      var j :| 0 <= j < |fs| && fs[j] == es[i];
    }
    if Mentions(fs, file, key) {
      var j :| 0 <= j < |fs| && Matches(fs[j], file, key);
      assert fs[j] in es;
      var i :| 0 <= i < |es| && es[i] == fs[j];
    }
  }

  /** Entry sequences with the same members store the same value for a present
      (file, key) pair. */
  lemma SameValue<K(!new)>(es: seq<Entry<K>>, fs: seq<Entry<K>>, file: string, key: K)
    requires forall e :: e in es <==> e in fs
    requires Present(Accumulate(es), file, key)
    ensures Present(Accumulate(fs), file, key)
    ensures Accumulate(es)[file][key] == Accumulate(fs)[file][key]
  {
    SamePresence(es, fs, file, key);
    AccumulateIsMax(es, file, key);
    AccumulateIsMax(fs, file, key);
    MaxFromZeroUnique(Accumulate(es)[file][key], es, Accumulate(fs)[file][key], fs, file, key);
  }

  /** In particular a permutation of the entries gives the same report. */
  lemma AccumulatePermutation<K(!new)>(es: seq<Entry<K>>, fs: seq<Entry<K>>)
    requires multiset(es) == multiset(fs)
    ensures Accumulate(es) == Accumulate(fs)
  {
    forall e ensures e in es <==> e in fs {
      assert e in es <==> e in multiset(es);
      assert e in fs <==> e in multiset(fs);
    }
    AccumulateOrderIndependent(es, fs);
  }

  /** No stored value is ever negative. */
  lemma AccumulateNonNegative<K(!new)>(es: seq<Entry<K>>)
    ensures forall f, k :: f in Accumulate(es) && k in Accumulate(es)[f] ==> 0.0 <= Accumulate(es)[f][k]
  {
    forall f, k | f in Accumulate(es) && k in Accumulate(es)[f] ensures 0.0 <= Accumulate(es)[f][k] {
      AccumulateIsMax(es, f, k);
    }
  }
}

=== FILE: bisect.dfy ===
/** Python's `bisect.bisect_right`, the search the diff lookup relies on. */
module Bisect {

  /** Every key is at most its successor. */
  predicate Sorted(keys: seq<int>) {
    forall i, j :: 0 <= i < j < |keys| ==> keys[i] <= keys[j]
  }

  /** `keys[..k]` are all at most `x` and `keys[k..]` all exceed it. */
  predicate SplitsAt(keys: seq<int>, x: int, k: int) {
    && 0 <= k <= |keys|
    && (forall i :: 0 <= i < k ==> keys[i] <= x)
    && (forall i :: k <= i < |keys| ==> x < keys[i])
  }

  /** The library's binary search on `keys[lo..hi]`, step for step:
      halve at `(lo + hi) // 2`, go left when `x < keys[mid]`, right otherwise.
      It is defined on every sequence, sorted or not. */
  function BisectRight(keys: seq<int>, x: int, lo: int, hi: int): (r: int)
    requires 0 <= lo <= hi <= |keys|
    ensures lo <= r <= hi
    decreases hi - lo
  {
    if lo < hi then
      var mid := (lo + hi) / 2;
      if x < keys[mid] then BisectRight(keys, x, lo, mid)
      else BisectRight(keys, x, mid + 1, hi)
    else
      lo
  }

  /** On a sorted sequence the search stops exactly where the keys at most `x` end. */
  lemma {:induction false} BisectRightSplits(keys: seq<int>, x: int, lo: int, hi: int)
    requires Sorted(keys)
    requires 0 <= lo <= hi <= |keys|
    requires forall i :: 0 <= i < lo ==> keys[i] <= x
    requires forall i :: hi <= i < |keys| ==> x < keys[i]
    ensures SplitsAt(keys, x, BisectRight(keys, x, lo, hi))
    decreases hi - lo
  {
    if lo < hi {
      var mid := (lo + hi) / 2;
      if x < keys[mid] {
        BisectRightSplits(keys, x, lo, mid);
      } else {
        BisectRightSplits(keys, x, mid + 1, hi);
      }
    }
  }

  /** The iterative search as the library writes it. It computes the same index as
      the recursive definition on every input, and on sorted input that index
      splits the keys at `x`. */
  method BisectRightLoop(keys: seq<int>, x: int) returns (k: int)
    ensures k == BisectRight(keys, x, 0, |keys|)
    ensures Sorted(keys) ==> SplitsAt(keys, x, k)
  {
    var lo, hi := 0, |keys|;
    while lo < hi
      invariant 0 <= lo <= hi <= |keys|
      invariant BisectRight(keys, x, lo, hi) == BisectRight(keys, x, 0, |keys|)
    {
      var mid := (lo + hi) / 2;
      if x < keys[mid] {
        hi := mid;
      } else {
        lo := mid + 1;
      }
    }
    k := lo;
    if Sorted(keys) {
      BisectRightSplits(keys, x, 0, |keys|);
    }
  }
}

=== FILE: collect.dfy ===
/** The loop both readers run over a report: for each group of lines (one LCOV
    record, one Cobertura class) settle the group's path, then for each line
    compute a key and a candidate value, stopping at the first exception, and
    fold the candidates into a report with `Accumulate`. */
module Collect {
  import opened Wrappers
  import opened Documents
  import opened Accumulation

  /** A group's path (or the exception computing it raised) and its lines. */
  datatype Group<L> = Group(path: Result<string, ReadError>, lines: seq<L>)

  /** The candidate entries of one group's lines, in order; the first line
      whose value raises ends the read. */
  function LineEntries<L, K>(path: string, lines: seq<L>, key: L -> K, value: L -> Result<real, ReadError>)
    : (r: Result<seq<Entry<K>>, ReadError>)
    ensures r.Failure? <==> exists j :: 0 <= j < |lines| && value(lines[j]).Failure?
    ensures r.Success? ==> |r.value| == |lines|
    ensures r.Success? ==> forall j :: 0 <= j < |lines| ==>
              value(lines[j]).Success? && r.value[j] == Entry(path, key(lines[j]), value(lines[j]).value)
    decreases |lines|
  {
    if lines == [] then Success([])
    else
      var init := lines[..|lines| - 1];
      var last := lines[|lines| - 1];
      match LineEntries(path, init, key, value)
      case Failure(err) =>
        Failure(err)
      case Success(front) =>
        match value(last)
        case Failure(err) =>
          Failure(err)
        case Success(v) =>
          assert forall j :: 0 <= j < |init| ==> init[j] == lines[j];
          Success(front + [Entry(path, key(last), v)])
  }

  /** A group ends the read: its path, or the value of one of its lines,
      raised. */
  predicate GroupFails<L>(g: Group<L>, value: L -> Result<real, ReadError>) {
    g.path.Failure? || exists j :: 0 <= j < |g.lines| && value(g.lines[j]).Failure?
  }

  /** All candidate entries, group by group in order. */
  function Entries<L, K>(groups: seq<Group<L>>, key: L -> K, value: L -> Result<real, ReadError>)
    : (r: Result<seq<Entry<K>>, ReadError>)
    ensures r.Failure? <==> exists i :: 0 <= i < |groups| && GroupFails(groups[i], value)
    decreases |groups|
  {
    if groups == [] then Success([])
    else
      var init := groups[..|groups| - 1];
      var g := groups[|groups| - 1];
      assert forall i :: 0 <= i < |init| ==> init[i] == groups[i];
      match Entries(init, key, value)
      case Failure(err) =>
        Failure(err)
      case Success(front) =>
        match g.path
        case Failure(err) =>
          Failure(err)
        case Success(path) =>
          match LineEntries(path, g.lines, key, value)
          case Failure(err) =>
            Failure(err)
          case Success(back) =>
            Success(front + back)
  }

  /** The entry line `j` of group `i` contributes once the read gets through
      (the defaults never show: a read that gets through has every path and
      every value). */
  function EntryAt<L, K>(groups: seq<Group<L>>, key: L -> K, value: L -> Result<real, ReadError>, i: nat, j: nat): Entry<K>
    requires i < |groups| && j < |groups[i].lines|
  {
    var line := groups[i].lines[j];
    Entry(
      if groups[i].path.Success? then groups[i].path.value else "",
      key(line),
      if value(line).Success? then value(line).value else 0.0)
  }

  /** A read that gets through produces exactly one entry per line of every
      group. */
  lemma {:induction false} EntriesMembers<L, K(!new)>(groups: seq<Group<L>>, key: L -> K, value: L -> Result<real, ReadError>)
    requires Entries(groups, key, value).Success?
    ensures forall e :: e in Entries(groups, key, value).value <==>
              exists i: nat, j: nat :: i < |groups| && j < |groups[i].lines| && e == EntryAt(groups, key, value, i, j)
    decreases |groups|
  {
    if groups != [] {
      var n := |groups| - 1;
      var init := groups[..n];
      var g := groups[n];
      assert forall i :: 0 <= i < |init| ==> init[i] == groups[i];
      EntriesMembers(init, key, value);
      var front := Entries(init, key, value).value;
      var back := LineEntries(g.path.value, g.lines, key, value).value;
      assert Entries(groups, key, value).value == front + back;
      forall e | e in front + back
        ensures exists i: nat, j: nat :: i < |groups| && j < |groups[i].lines| && e == EntryAt(groups, key, value, i, j)
      {
        if e in front {
          var i: nat, j: nat :| i < |init| && j < |init[i].lines| && e == EntryAt(init, key, value, i, j);
          assert e == EntryAt(groups, key, value, i, j);
        } else {
          var j :| 0 <= j < |back| && back[j] == e;
          assert e == EntryAt(groups, key, value, n, j);
        }
      }
      forall i: nat, j: nat | i < |groups| && j < |groups[i].lines|
        ensures EntryAt(groups, key, value, i, j) in front + back
      {
        if i < n {
          assert EntryAt(groups, key, value, i, j) == EntryAt(init, key, value, i, j);
          assert EntryAt(init, key, value, i, j) in front;
        } else {
          assert EntryAt(groups, key, value, i, j) == back[j];
        }
      }
    }
  }

  /** Line `j` of group `i` is for `file` and `k`. */
  predicate Offers<L, K(==)>(groups: seq<Group<L>>, key: L -> K, file: string, k: K, i: nat, j: nat) {
    && i < |groups| && j < |groups[i].lines|
    && groups[i].path == Success(file)
    && key(groups[i].lines[j]) == k
  }

  /** The value of line `j` of group `i` (0 if it raises). */
  function LineValueAt<L>(groups: seq<Group<L>>, value: L -> Result<real, ReadError>, i: nat, j: nat): real
    requires i < |groups| && j < |groups[i].lines|
  {
    var v := value(groups[i].lines[j]);
    if v.Success? then v.value else 0.0
  }

  /** `v` is the maximum of 0 and the values of all lines for `file` and `k`. */
  ghost predicate LineMax<L, K(!new)>(v: real, groups: seq<Group<L>>, key: L -> K, value: L -> Result<real, ReadError>, file: string, k: K) {
    && 0.0 <= v
    && (forall i: nat, j: nat :: Offers(groups, key, file, k, i, j) ==> LineValueAt(groups, value, i, j) <= v)
    && (v == 0.0 || exists i: nat, j: nat :: Offers(groups, key, file, k, i, j) && LineValueAt(groups, value, i, j) == v)
  }

  /** The report a successful read builds. */
  function ReportOf<L, K(==,!new)>(groups: seq<Group<L>>, key: L -> K, value: L -> Result<real, ReadError>): Report<K>
    requires Entries(groups, key, value).Success?
  {
    Accumulate(Entries(groups, key, value).value)
  }

  /** The report holds exactly the (file, key) pairs some line is for, each with
      the maximum of 0 and the values of those lines. */
  lemma ReportOfLines<L, K(!new)>(groups: seq<Group<L>>, key: L -> K, value: L -> Result<real, ReadError>, file: string, k: K)
    requires Entries(groups, key, value).Success?
    ensures Present(ReportOf(groups, key, value), file, k) <==> exists i: nat, j: nat :: Offers(groups, key, file, k, i, j)
    ensures Present(ReportOf(groups, key, value), file, k) ==>
              LineMax(ReportOf(groups, key, value)[file][k], groups, key, value, file, k)
  {
    var es := Entries(groups, key, value).value;
    EntriesMembers(groups, key, value);
    AccumulateIsMax(es, file, k);
    assert Entries(groups, key, value).Failure? <==> exists i :: 0 <= i < |groups| && GroupFails(groups[i], value);
    forall i: nat, j: nat | Offers(groups, key, file, k, i, j)
      ensures EntryAt(groups, key, value, i, j) in es
      ensures Matches(EntryAt(groups, key, value, i, j), file, k)
      ensures EntryAt(groups, key, value, i, j).value == LineValueAt(groups, value, i, j)
    {
      assert !GroupFails(groups[i], value);
    }
    if Mentions(es, file, k) {
      var p :| 0 <= p < |es| && Matches(es[p], file, k);
      assert es[p] in es;
      var i: nat, j: nat :| i < |groups| && j < |groups[i].lines| && es[p] == EntryAt(groups, key, value, i, j);
      assert !GroupFails(groups[i], value);
      assert Offers(groups, key, file, k, i, j);
    }
    if Present(Accumulate(es), file, k) {
      var v := Accumulate(es)[file][k];
      forall i: nat, j: nat | Offers(groups, key, file, k, i, j)
        ensures LineValueAt(groups, value, i, j) <= v
      {
        var p :| 0 <= p < |es| && es[p] == EntryAt(groups, key, value, i, j);
      }
      if v != 0.0 {
        var p :| 0 <= p < |es| && Matches(es[p], file, k) && es[p].value == v;
        assert es[p] in es;
        var i: nat, j: nat :| i < |groups| && j < |groups[i].lines| && es[p] == EntryAt(groups, key, value, i, j);
        assert !GroupFails(groups[i], value);
        assert Offers(groups, key, file, k, i, j) && LineValueAt(groups, value, i, j) == v;
      }
    }
  }

  /** Only which groups there are matters: reading them in another order, or
      some of them twice, gets through just the same and builds the same
      report. */
  lemma ReportOfSameGroups<L, K(!new)>(gs: seq<Group<L>>, hs: seq<Group<L>>, key: L -> K, value: L -> Result<real, ReadError>)
    requires forall g :: g in gs <==> g in hs
    requires Entries(gs, key, value).Success?
    ensures Entries(hs, key, value).Success?
    ensures ReportOf(hs, key, value) == ReportOf(gs, key, value)
  {
    forall i | 0 <= i < |hs| ensures !GroupFails(hs[i], value) {
      assert hs[i] in gs;
    }
    EntriesMembers(gs, key, value);
    EntriesMembers(hs, key, value);
    var es := Entries(gs, key, value).value;
    var fs := Entries(hs, key, value).value;
    forall e | e in es ensures e in fs {
      var i: nat, j: nat :| i < |gs| && j < |gs[i].lines| && e == EntryAt(gs, key, value, i, j);
      SameEntryAt(gs, hs, key, value, i, j);
    }
    forall e | e in fs ensures e in es {
      var i: nat, j: nat :| i < |hs| && j < |hs[i].lines| && e == EntryAt(hs, key, value, i, j);
      SameEntryAt(hs, gs, key, value, i, j);
    }
    AccumulateOrderIndependent(es, fs);
  }

  /** The entry of a line of a group is the same wherever the group stands. */
  lemma SameEntryAt<L, K>(gs: seq<Group<L>>, hs: seq<Group<L>>, key: L -> K, value: L -> Result<real, ReadError>, i: nat, j: nat)
    requires i < |gs| && j < |gs[i].lines| && gs[i] in hs
    ensures exists k: nat :: k < |hs| && j < |hs[k].lines| && EntryAt(gs, key, value, i, j) == EntryAt(hs, key, value, k, j)
  {
    var k :| 0 <= k < |hs| && hs[k] == gs[i];
    assert EntryAt(gs, key, value, i, j) == EntryAt(hs, key, value, k, j);
  }

  /** Two value functions that agree wherever the second gets through read the
      same lines the same way. */
  lemma {:induction false} LineEntriesAgree<L, K>(path: string, lines: seq<L>, key: L -> K,
                                                  v1: L -> Result<real, ReadError>, v2: L -> Result<real, ReadError>)
    requires forall l :: v2(l).Success? ==> v1(l) == v2(l)
    requires LineEntries(path, lines, key, v2).Success?
    ensures LineEntries(path, lines, key, v1) == LineEntries(path, lines, key, v2)
    decreases |lines|
  {
    if lines != [] {
      LineEntriesAgree(path, lines[..|lines| - 1], key, v1, v2);
    }
  }

  lemma {:induction false} EntriesAgree<L, K>(groups: seq<Group<L>>, key: L -> K,
                                              v1: L -> Result<real, ReadError>, v2: L -> Result<real, ReadError>)
    requires forall l :: v2(l).Success? ==> v1(l) == v2(l)
    requires Entries(groups, key, v2).Success?
    ensures Entries(groups, key, v1) == Entries(groups, key, v2)
    decreases |groups|
  {
    if groups != [] {
      var g := groups[|groups| - 1];
      EntriesAgree(groups[..|groups| - 1], key, v1, v2);
      LineEntriesAgree(g.path.value, g.lines, key, v1, v2);
    }
  }
}

=== FILE: condition_coverage.dfy ===
/** The `condition-coverage` attribute of a Cobertura branch line, such as
    "50% (1/2)", read with `re.match('\d+%\s+\((\d+)/(\d+)\)', text)`.

    `re.match` anchors only at the start, so any text may follow the closing
    parenthesis. Every repeated class in the pattern is followed by a character
    the class does not contain ('%', '(', '/', ')'), so backtracking can never
    pick a shorter run: the match, when there is one, takes the maximal run at
    each step, and that is how `Match` reads. */
module ConditionCoverage {
  import opened Wrappers
  import opened Numerals

  /** A successful match, split at the pattern's pieces: the percentage digits,
      the whitespace gap, the two groups and whatever follows the match. */
  datatype ConditionMatch = ConditionMatch(percent: string, gap: string, covered: string, total: string, rest: string)

  /** The pieces a match can consist of. */
  predicate WellFormed(m: ConditionMatch) {
    && |m.percent| > 0 && AllDigits(m.percent)
    && |m.gap| > 0 && AllSpace(m.gap)
    && |m.covered| > 0 && AllDigits(m.covered)
    && |m.total| > 0 && AllDigits(m.total)
  }

  /** The text the pieces were matched in. */
  function Render(m: ConditionMatch): string {
    m.percent + ['%'] + (m.gap + ['('] + (m.covered + ['/'] + (m.total + [')'] + m.rest)))
  }

  /** A maximal run of digits followed by `stop`, then the rest of the text. */
  function Cut(s: string, stop: char): (r: Option<(string, string)>)
    requires !IsDigit(stop)
    ensures r.Some? ==> |r.value.0| > 0 && AllDigits(r.value.0) && s == r.value.0 + [stop] + r.value.1
  {
    var n := DigitRun(s);
    if n == 0 || n == |s| || s[n] != stop then None
    else
      assert s == s[..n] + [stop] + s[n + 1..];
      Some((s[..n], s[n + 1..]))
  }

  /** Cutting a digit string followed by `stop` gives back the pieces. */
  lemma CutOf(digits: string, stop: char, rest: string)
    requires !IsDigit(stop) && |digits| > 0 && AllDigits(digits)
    ensures Cut(digits + [stop] + rest, stop) == Some((digits, rest))
  {
    var s := digits + [stop] + rest;
    assert s == digits + ([stop] + rest);
    DigitRunOf(digits, [stop] + rest);
    assert s[..|digits|] == digits && s[|digits| + 1..] == rest;
  }

  /** The same for a maximal run of whitespace. */
  function CutSpace(s: string, stop: char): (r: Option<(string, string)>)
    requires !IsSpace(stop)
    ensures r.Some? ==> |r.value.0| > 0 && AllSpace(r.value.0) && s == r.value.0 + [stop] + r.value.1
  {
    var n := SpaceRun(s);
    if n == 0 || n == |s| || s[n] != stop then None
    else
      assert s == s[..n] + [stop] + s[n + 1..];
      Some((s[..n], s[n + 1..]))
  }

  lemma CutSpaceOf(gap: string, stop: char, rest: string)
    requires !IsSpace(stop) && |gap| > 0 && AllSpace(gap)
    ensures CutSpace(gap + [stop] + rest, stop) == Some((gap, rest))
  {
    var s := gap + [stop] + rest;
    assert s == gap + ([stop] + rest);
    SpaceRunOf(gap, [stop] + rest);
    assert s[..|gap|] == gap && s[|gap| + 1..] == rest;
  }

  /** `re.match` of the pattern against `s`: None when the text does not start
      with a match, the empty string included. */
  function Match(s: string): (r: Option<ConditionMatch>)
    ensures r.Some? ==> WellFormed(r.value) && Render(r.value) == s
  {
    match Cut(s, '%')
    case None => None
    case Some((percent, s1)) =>
      match CutSpace(s1, '(')
      case None => None
      case Some((gap, s2)) =>
        match Cut(s2, '/')
        case None => None
        case Some((covered, s3)) =>
          match Cut(s3, ')')
          case None => None
          case Some((total, rest)) =>
            Some(ConditionMatch(percent, gap, covered, total, rest))
  }

  /** Every well-formed rendering is matched, and matched as exactly those
      pieces. */
  lemma MatchRender(m: ConditionMatch)
    requires WellFormed(m)
    ensures Match(Render(m)) == Some(m)
  {
    var s3 := m.total + [')'] + m.rest;
    var s2 := m.covered + ['/'] + s3;
    var s1 := m.gap + ['('] + s2;
    CutOf(m.percent, '%', s1);
    CutSpaceOf(m.gap, '(', s2);
    CutOf(m.covered, '/', s3);
    CutOf(m.total, ')', m.rest);
  }

  /** The text matches exactly when it is the rendering of well-formed pieces,
      and then the match is those pieces. */
  lemma MatchIff(s: string, m: ConditionMatch)
    ensures Match(s) == Some(m) <==> WellFormed(m) && Render(m) == s
  {
    if WellFormed(m) && Render(m) == s {
      MatchRender(m);
    }
  }

  /** No text without a '%' matches; the empty attribute does not. */
  lemma MatchNeedsPercent(s: string)
    requires forall i :: 0 <= i < |s| ==> s[i] != '%'
    ensures Match(s) == None
  {
    var n := DigitRun(s);
    if n < |s| {
      assert s[n] != '%';
    }
  }

  /** The two groups as numbers: `int(m.group(1))` and `int(m.group(2))`. */
  function Covered(m: ConditionMatch): nat
    requires WellFormed(m)
  {
    DecimalValue(m.covered)
  }

  function Total(m: ConditionMatch): nat
    requires WellFormed(m)
  {
    DecimalValue(m.total)
  }

  /** The attribute text a coverage tool writes for `covered` of `total`
      conditions, followed by `rest`. */
  function Written(percent: nat, covered: nat, total: nat, rest: string): string {
    ShowNat(percent) + "% (" + ShowNat(covered) + "/" + ShowNat(total) + ")" + rest
  }

  /** The written attribute matches, and its groups are the two counts (the
      percentage is not checked against them). */
  lemma MatchWritten(percent: nat, covered: nat, total: nat, rest: string)
    ensures Match(Written(percent, covered, total, rest)).Some?
    ensures Covered(Match(Written(percent, covered, total, rest)).value) == covered
    ensures Total(Match(Written(percent, covered, total, rest)).value) == total
  {
    var m := ConditionMatch(ShowNat(percent), " ", ShowNat(covered), ShowNat(total), rest);
    assert "% (" == ['%'] + " " + ['('] && "/" == ['/'] && ")" == [')'];
    assert Written(percent, covered, total, rest) == Render(m);
    assert AllSpace(m.gap);
    MatchRender(m);
    DecimalValueOfShowNat(covered);
    DecimalValueOfShowNat(total);
  }
}

=== FILE: coverage.dfy ===
/** `Coverage.from_lcov` and `Coverage.from_xml`: read a report into a map from
    file to line key to coverage value, each the largest value any record
    offers for that line and never below 0. */
module Coverage {
  import opened Wrappers
  import opened Numerals
  import opened ConditionCoverage
  import opened Documents
  import opened Accumulation
  import opened Collect

  /** `not root_dir`: no root, or the empty root. */
  predicate NoRoot(root: Option<string>) {
    root == None || root == Some("")
  }

  /** `path.startswith('..')`: the relative path climbs out of the root (or, as
      written, merely names something beginning with two dots). */
  predicate StartsWithDots(path: string) {
    |path| >= 2 && path[0] == '.' && path[1] == '.'
  }

  /** `_relative_filename`: the path relative to the root when it stays inside
      the root, otherwise the path unchanged; a ValueError from `relpath`
      propagates. */
  function RelativeFilename(paths: Paths, filename: string, root: Option<string>): (r: Result<string, ReadError>)
    ensures NoRoot(root) ==> r == Success(filename)
    ensures r.Failure? <==> !NoRoot(root) && paths.relpath(filename, root.value).None?
    ensures r.Success? && StartsWithDots(r.value) ==> r.value == filename
    ensures r.Success? && r.value != filename ==> paths.relpath(filename, root.value) == Some(r.value)
    ensures !NoRoot(root) && paths.relpath(filename, root.value).Some? && !StartsWithDots(paths.relpath(filename, root.value).value) ==>
              r == Success(paths.relpath(filename, root.value).value)
  {
    if NoRoot(root) then Success(filename)
    else
      match paths.relpath(filename, root.value)
      case None => Failure(RelPathFailed(filename))
      case Some(newPath) => if !StartsWithDots(newPath) then Success(newPath) else Success(filename)
  }

  /** When `relpath` is the inverse of `join` (joining the start and the
      relative path gives the path back), the name read is always the same
      file: the path as given, or a path inside the root that leads back to
      it. */
  lemma RelativeFilenameSameFile(paths: Paths, filename: string, root: Option<string>)
    requires forall f, s, p :: paths.relpath(f, s) == Some(p) ==> paths.join(Some(s), p) == Some(f)
    ensures var r := RelativeFilename(paths, filename, root);
            r.Success? ==> || r.value == filename
                           || (!NoRoot(root) && !StartsWithDots(r.value) && paths.join(root, r.value) == Some(filename))
  {
  }

  // ---------------------------------------------------------------- LCOV

  function LcovKey(line: LcovLine): int {
    line.line
  }

  /** The candidate `min(line['hit'], 0)` as written. */
  function LcovValue(line: LcovLine): Result<real, ReadError> {
    Success((if line.hit < 0 then line.hit else 0) as real)
  }

  /** The candidate `min(line['hit'], 1)`: 1 for a line that was hit. */
  function IntendedLcovValue(line: LcovLine): Result<real, ReadError> {
    Success((if line.hit < 1 then line.hit else 1) as real)
  }

  /** One group per record. The file name is relativised for each line, so a
      record without lines never computes it. */
  function LcovGroups(paths: Paths, records: seq<LcovRecord>, root: Option<string>): (gs: seq<Group<LcovLine>>)
    ensures |gs| == |records|
    ensures forall i :: 0 <= i < |records| ==> gs[i].lines == records[i].lines
    ensures forall i :: 0 <= i < |records| && records[i].lines != [] ==>
              gs[i].path == RelativeFilename(paths, records[i].file, root)
  {
    seq(|records|, i requires 0 <= i < |records| =>
      Group(if records[i].lines == [] then Success(records[i].file)
            else RelativeFilename(paths, records[i].file, root),
            records[i].lines))
  }

  /** `Coverage.from_lcov` as written. */
  function FromLcov(paths: Paths, records: seq<LcovRecord>, root: Option<string>): (r: Result<Report<int>, ReadError>)
    ensures r.Failure? <==> exists i :: 0 <= i < |records| && records[i].lines != [] &&
                              RelativeFilename(paths, records[i].file, root).Failure?
  {
    var groups := LcovGroups(paths, records, root);
    match Entries(groups, LcovKey, LcovValue)
    case Failure(err) => Failure(err)
    case Success(es) => Success(Accumulate(es))
  }

  /** `Coverage.from_lcov` with the candidate `min(hit, 1)`. */
  function IntendedFromLcov(paths: Paths, records: seq<LcovRecord>, root: Option<string>): (r: Result<Report<int>, ReadError>)
    ensures r.Failure? <==> FromLcov(paths, records, root).Failure?
  {
    var groups := LcovGroups(paths, records, root);
    match Entries(groups, LcovKey, IntendedLcovValue)
    case Failure(err) => Failure(err)
    case Success(es) => Success(Accumulate(es))
  }

  /** Some line of some record with lines is for `line` of `file`. */
  ghost predicate LcovMentions(paths: Paths, records: seq<LcovRecord>, root: Option<string>, file: string, line: int) {
    exists i: nat, j: nat :: Offers(LcovGroups(paths, records, root), LcovKey, file, line, i, j)
  }

  /** As written, the LCOV reader reports every line it sees, and every one as
      uncovered: the stored value is always 0, whatever the hit count. */
  lemma FromLcovAllZero(paths: Paths, records: seq<LcovRecord>, root: Option<string>, file: string, line: int)
    requires FromLcov(paths, records, root).Success?
    ensures Present(FromLcov(paths, records, root).value, file, line) <==> LcovMentions(paths, records, root, file, line)
    ensures Stored(FromLcov(paths, records, root).value, file, line) == 0.0
  {
    var groups := LcovGroups(paths, records, root);
    ReportOfLines(groups, LcovKey, LcovValue, file, line);
    AccumulateIsMax(Entries(groups, LcovKey, LcovValue).value, file, line);
  }

  /** The tracefile `SF:a.py`, `DA:5,3`, `DA:6,0`: as written both lines read
      0; with the intended candidate line 5 reads 1 and line 6 reads 0. */
  lemma HitLineReadsZero(paths: Paths)
    ensures FromLcov(paths, ExampleTrace(), None) == Success(map["a.py" := map[5 := 0.0, 6 := 0.0]])
    ensures IntendedFromLcov(paths, ExampleTrace(), None) == Success(map["a.py" := map[5 := 1.0, 6 := 0.0]])
  {
    var lines := [LcovLine(5, 3), LcovLine(6, 0)];
    var groups := LcovGroups(paths, ExampleTrace(), None);
    assert groups == [Group(Success("a.py"), lines)];
    ExampleEntries(lines, LcovValue, 0.0, 0.0);
    ExampleEntries(lines, IntendedLcovValue, 1.0, 0.0);
    assert groups[..0] == [];
    assert Entries(groups, LcovKey, LcovValue) == Success([] + [Entry("a.py", 5, 0.0), Entry("a.py", 6, 0.0)]);
    assert Entries(groups, LcovKey, IntendedLcovValue) == Success([] + [Entry("a.py", 5, 1.0), Entry("a.py", 6, 0.0)]);
    assert [] + [Entry("a.py", 5, 0.0), Entry("a.py", 6, 0.0)] == [Entry("a.py", 5, 0.0), Entry("a.py", 6, 0.0)];
    assert [] + [Entry("a.py", 5, 1.0), Entry("a.py", 6, 0.0)] == [Entry("a.py", 5, 1.0), Entry("a.py", 6, 0.0)];
    ExampleAccumulate(0.0, 0.0);
    ExampleAccumulate(1.0, 0.0);
  }

  function ExampleTrace(): seq<LcovRecord> {
    [LcovRecord("a.py", [LcovLine(5, 3), LcovLine(6, 0)])]
  }

  lemma ExampleEntries(lines: seq<LcovLine>, value: LcovLine -> Result<real, ReadError>, v5: real, v6: real)
    requires lines == [LcovLine(5, 3), LcovLine(6, 0)]
    requires value(lines[0]) == Success(v5) && value(lines[1]) == Success(v6)
    ensures LineEntries("a.py", lines, LcovKey, value) == Success([Entry("a.py", 5, v5), Entry("a.py", 6, v6)])
  {
    assert lines[..1] == [lines[0]] && lines[..1][..0] == [];
    assert LineEntries("a.py", [], LcovKey, value) == Success([]);
    assert LineEntries("a.py", lines[..1], LcovKey, value) == Success([] + [Entry("a.py", 5, v5)]);
    assert [] + [Entry("a.py", 5, v5)] + [Entry("a.py", 6, v6)] == [Entry("a.py", 5, v5), Entry("a.py", 6, v6)];
  }

  lemma ExampleAccumulate(v5: real, v6: real)
    requires 0.0 <= v5 && 0.0 <= v6
    ensures Accumulate([Entry("a.py", 5, v5), Entry("a.py", 6, v6)]) == map["a.py" := map[5 := v5, 6 := v6]]
  {
    var es := [Entry("a.py", 5, v5), Entry("a.py", 6, v6)];
    assert es[..1] == [es[0]] && es[..1][..0] == [];
    assert Accumulate(es[..1]) == map["a.py" := map[5 := v5]];
  }

  /** With the intended candidate a line is 1 exactly when some record hit it,
      and 0 otherwise. */
  lemma IntendedFromLcovHit(paths: Paths, records: seq<LcovRecord>, root: Option<string>, file: string, line: int)
    requires IntendedFromLcov(paths, records, root).Success?
    ensures Present(IntendedFromLcov(paths, records, root).value, file, line) <==> LcovMentions(paths, records, root, file, line)
    ensures Stored(IntendedFromLcov(paths, records, root).value, file, line) ==
              if exists i: nat, j: nat :: Offers(LcovGroups(paths, records, root), LcovKey, file, line, i, j)
                                        && LcovGroups(paths, records, root)[i].lines[j].hit > 0
              then 1.0 else 0.0
  {
    var groups := LcovGroups(paths, records, root);
    var rep := IntendedFromLcov(paths, records, root).value;
    ReportOfLines(groups, LcovKey, IntendedLcovValue, file, line);
    AccumulateIsMax(Entries(groups, LcovKey, IntendedLcovValue).value, file, line);
    if exists i: nat, j: nat :: Offers(groups, LcovKey, file, line, i, j) && groups[i].lines[j].hit > 0 {
      var i: nat, j: nat :| Offers(groups, LcovKey, file, line, i, j) && groups[i].lines[j].hit > 0;
      assert LineValueAt(groups, IntendedLcovValue, i, j) == 1.0;
    }
  }

  // ---------------------------------------------------------------- Cobertura XML

  /** The line key: the raw `number` attribute. */
  function LineNumber(line: XmlLine): Option<string> {
    line.number
  }

  /** The candidate value of a non-branch line, `int(line.get('hits', 0))`. */
  function HitsValue(line: XmlLine): (r: Result<real, ReadError>)
    ensures line.hits == None ==> r == Success(0.0)
    ensures line.hits.Some? ==> (r.Success? <==> ParseInt(line.hits.value).Some?)
    ensures r.Success? && line.hits.Some? ==> r.value == ParseInt(line.hits.value).value as real
  {
    match line.hits
    case None => Success(0.0)
    case Some(text) =>
      match ParseInt(text)
      case None => Failure(BadHits(text))
      case Some(n) => Success(n as real)
  }

  /** The fraction of conditions a matched attribute reports covered. */
  function CoveredFraction(text: string): (r: Result<real, ReadError>)
    ensures r.Success? <==> Match(text).Some? && Total(Match(text).value) > 0
    ensures r.Success? ==> 0.0 <= r.value
    ensures r.Success? ==> r.value == Ratio(Covered(Match(text).value), Total(Match(text).value))
  {
    match Match(text)
    case None => Failure(UnparsableConditionCoverage(text))
    case Some(m) =>
      if Total(m) == 0 then Failure(ZeroTotal(text))
      else Success(Ratio(Covered(m), Total(m)))
  }

  /** `Fraction(covered, total)`, exactly. */
  function Ratio(covered: nat, total: nat): (q: real)
    requires total > 0
    ensures 0.0 <= q
    ensures q * total as real == covered as real
  {
    covered as real / total as real
  }

  /** The candidate value of one line as `from_xml` computes it: for a branch
      line the covered fraction of its conditions, where a missing attribute
      makes `re.match` raise; for any other line its hit count. */
  function LineValue(line: XmlLine): (r: Result<real, ReadError>)
    ensures IsBranch(line) && line.conditionCoverage == None ==> r == Failure(MissingConditionCoverage)
    ensures IsBranch(line) && r.Success? ==>
              exists m :: WellFormed(m) && line.conditionCoverage == Some(Render(m)) && Total(m) > 0
                          && r.value == Ratio(Covered(m), Total(m))
    ensures IsBranch(line) && line.conditionCoverage.Some? ==>
              (r.Success? <==> Match(line.conditionCoverage.value).Some? && Total(Match(line.conditionCoverage.value).value) > 0)
    ensures IsBranch(line) && line.conditionCoverage.Some? && r.Success? ==>
              r.value == Ratio(Covered(Match(line.conditionCoverage.value).value), Total(Match(line.conditionCoverage.value).value))
    ensures !IsBranch(line) ==> r == HitsValue(line)
  {
    if IsBranch(line) then
      match line.conditionCoverage
      case None => Failure(MissingConditionCoverage)
      case Some(text) =>
        var r := CoveredFraction(text);
        if r.Success? then
          var m := Match(text).value;
          assert WellFormed(m) && text == Render(m);
          r
        else r
    else HitsValue(line)
  }

  /** A branch line carrying the attribute a coverage tool writes for `covered`
      of `total > 0` conditions has the value covered / total. */
  lemma LineValueWritten(number: Option<string>, hits: Option<string>, percent: nat, covered: nat, total: nat, rest: string)
    requires total > 0
    ensures LineValue(XmlLine(number, hits, Some("true"), Some(Written(percent, covered, total, rest))))
            == Success(Ratio(covered, total))
  {
    MatchWritten(percent, covered, total, rest);
  }

  /** A branch line whose attribute matches as the well-formed pieces `m`,
      in any spacing and with any leading zeros, has the value of the groups
      it matched, covered / total, when that total is not 0; with a total of
      0 it raises. */
  lemma LineValueMatched(number: Option<string>, hits: Option<string>, m: ConditionMatch)
    requires WellFormed(m)
    ensures Total(m) > 0 ==> LineValue(XmlLine(number, hits, Some("true"), Some(Render(m)))) == Success(Ratio(Covered(m), Total(m)))
    ensures Total(m) == 0 ==> LineValue(XmlLine(number, hits, Some("true"), Some(Render(m)))).Failure?
  {
    MatchRender(m);
  }

  /** A non-branch line whose hits attribute spells `n` has the value `n`. */
  lemma LineValueHits(number: Option<string>, branch: Option<string>, n: int)
    requires branch != Some("true")
    ensures LineValue(XmlLine(number, Some(ShowInt(n)), branch, None)) == Success(n as real)
  {
    ParseIntShowInt(n, "", "");
    assert "" + ShowInt(n) + "" == ShowInt(n);
  }

  /** `source_dir` after the loop over the `<source>` elements: the text of
      the last one, or "" when there is none. */
  function SourceDir(sources: seq<Option<string>>): Option<string> {
    if sources == [] then Some("") else sources[|sources| - 1]
  }

  /** A class's file: `os.path.join(source_dir, c.get('filename'))` made
      relative. A missing filename always makes `join` raise; whether a
      missing source text does is up to `join`. */
  function ClassPath(paths: Paths, dir: Option<string>, filename: Option<string>, root: Option<string>): Result<string, ReadError> {
    if filename == None then Failure(JoinFailed)
    else
      match paths.join(dir, filename.value)
      case None => Failure(JoinFailed)
      case Some(path) => RelativeFilename(paths, path, root)
  }

  /** One group per class, in document order. */
  function XmlGroups(paths: Paths, dir: Option<string>, classes: seq<XmlClass>, root: Option<string>): (gs: seq<Group<XmlLine>>)
    ensures |gs| == |classes|
    ensures forall i :: 0 <= i < |classes| ==>
              gs[i] == Group(ClassPath(paths, dir, classes[i].filename, root), classes[i].lines)
  {
    seq(|classes|, i requires 0 <= i < |classes| =>
      Group(ClassPath(paths, dir, classes[i].filename, root), classes[i].lines))
  }

  /** `Coverage.from_xml`. The root tag is not looked at. */
  function FromXml(paths: Paths, doc: XmlDocument, root: Option<string>): Result<Report<Option<string>>, ReadError> {
    var groups := XmlGroups(paths, SourceDir(doc.sources), doc.classes, root);
    match Entries(groups, LineNumber, LineValue)
    case Failure(err) => Failure(err)
    case Success(es) => Success(Accumulate(es))
  }

  /** The read fails exactly when some class's path, or some line's value,
      raises. */
  lemma FromXmlFailsIff(paths: Paths, doc: XmlDocument, root: Option<string>)
    ensures FromXml(paths, doc, root).Failure? <==>
              exists i :: 0 <= i < |doc.classes| &&
                (|| ClassPath(paths, SourceDir(doc.sources), doc.classes[i].filename, root).Failure?
                 || exists j :: 0 <= j < |doc.classes[i].lines| && LineValue(doc.classes[i].lines[j]).Failure?)
  {
    var groups := XmlGroups(paths, SourceDir(doc.sources), doc.classes, root);
    assert forall i :: 0 <= i < |doc.classes| ==> groups[i].lines == doc.classes[i].lines;
  }

  /** A successful read holds exactly the (file, number) pairs of the class
      lines, each with the maximum of 0 and the values of those lines. */
  lemma FromXmlLines(paths: Paths, doc: XmlDocument, root: Option<string>, file: string, number: Option<string>)
    ensures var groups := XmlGroups(paths, SourceDir(doc.sources), doc.classes, root);
            FromXml(paths, doc, root).Success? ==>
            && (Present(FromXml(paths, doc, root).value, file, number) <==>
                  exists i: nat, j: nat :: Offers(groups, LineNumber, file, number, i, j))
            && (Present(FromXml(paths, doc, root).value, file, number) ==>
                  LineMax(FromXml(paths, doc, root).value[file][number], groups, LineNumber, LineValue, file, number))
  {
    if FromXml(paths, doc, root).Success? {
      ReportOfLines(XmlGroups(paths, SourceDir(doc.sources), doc.classes, root), LineNumber, LineValue, file, number);
    }
  }

  /** Reading the classes in another order, or repeating some, changes
      nothing. */
  lemma FromXmlClassOrder(paths: Paths, doc: XmlDocument, classes: seq<XmlClass>, root: Option<string>)
    requires forall c :: c in doc.classes <==> c in classes
    ensures FromXml(paths, doc, root).Success? ==> FromXml(paths, doc.(classes := classes), root) == FromXml(paths, doc, root)
  {
    if FromXml(paths, doc, root).Success? {
      var dir := SourceDir(doc.sources);
      var gs := XmlGroups(paths, dir, doc.classes, root);
      var hs := XmlGroups(paths, dir, classes, root);
      forall g | g in gs ensures g in hs {
        var i :| 0 <= i < |gs| && gs[i] == g;
        assert doc.classes[i] in classes;
        var k :| 0 <= k < |classes| && classes[k] == doc.classes[i];
        assert hs[k] == g;
      }
      forall g | g in hs ensures g in gs {
        var i :| 0 <= i < |hs| && hs[i] == g;
        assert classes[i] in doc.classes;
        var k :| 0 <= k < |doc.classes| && doc.classes[k] == classes[i];
        assert gs[k] == g;
      }
      ReportOfSameGroups(gs, hs, LineNumber, LineValue);
    }
  }

  /** No value the XML reader stores is negative. */
  lemma FromXmlNonNegative(paths: Paths, doc: XmlDocument, root: Option<string>)
    ensures FromXml(paths, doc, root).Success? ==>
              forall f, k :: f in FromXml(paths, doc, root).value && k in FromXml(paths, doc, root).value[f] ==>
                0.0 <= FromXml(paths, doc, root).value[f][k]
  {
    if FromXml(paths, doc, root).Success? {
      AccumulateNonNegative(Entries(XmlGroups(paths, SourceDir(doc.sources), doc.classes, root), LineNumber, LineValue).value);
    }
  }

  /** A plain line with hits="4" stores the count 4, and a branch line with
      condition-coverage="50% (1/2)" stores the fraction 1/2. */
  lemma XmlLineExamples()
    ensures LineValue(XmlLine(Some("10"), Some("4"), Some("false"), None)) == Success(4.0)
    ensures LineValue(XmlLine(Some("11"), None, Some("true"), Some("50% (1/2)"))) == Success(0.5)
  {
    assert ShowInt(4) == "4";
    LineValueHits(Some("10"), Some("false"), 4);
    assert ShowNat(50) == ShowNat(5) + ['0'] == "50";
    assert Written(50, 1, 2, "") == "50% (1/2)";
    LineValueWritten(Some("11"), None, 50, 1, 2, "");
  }
}

=== FILE: diff_mapper.dfy ===
/** The diff line-mapper: from a parsed unified diff, a per-file list of
    breakpoints that translates a line of the target revision into the
    matching (file, line) of the source revision, or into (file, None) for a
    line the diff added. */
module DiffMapper {
  import opened Wrappers
  import Bisect

  /** One line of a hunk as the diff parser reports it: a context line has both
      numbers, an added line only a target number, a removed line only a source
      number. */
  datatype HunkLine = HunkLine(sourceLineNo: Option<int>, targetLineNo: Option<int>)

  /** One `@@ -sourceStart,sourceLength +targetStart,targetLength @@` hunk. */
  datatype Hunk = Hunk(sourceStart: int, sourceLength: int,
                       targetStart: int, targetLength: int,
                       lines: seq<HunkLine>)

  /** One file section of the diff, its hunks in diff order. */
  datatype PatchedFile = PatchedFile(sourceFile: string, targetFile: string, hunks: seq<Hunk>)

  /** A breakpoint: from `target` on, lines of the target file map to `source`,
      either at a fixed offset from `sourceLine` or, when `sourceLine` is None,
      to no source line at all (an "addition" row). */
  datatype Row = Row(target: int, source: string, sourceLine: Option<int>)

  /** Target path to its breakpoint rows. A path that is not a key has no rows. */
  type Mapping = map<string, seq<Row>>

  /** The one failure: a hunk whose start disagrees with the running offset, i.e.
      a hunk is missing or out of order. It carries what the message reports. */
  datatype DiffError = MissingHunk(sourcePath: string, sourceStart: int, sourceCurrent: int,
                                   targetPath: string, targetStart: int, targetCurrent: int)

  function Rows(m: Mapping, path: string): seq<Row> {
    if path in m then m[path] else []
  }

  // ---------------------------------------------------------------------------
  // Breakpoint rows

  /** `next` adds nothing after `last`: both are addition rows, or both are
      offset rows with the same target-minus-source offset. */
  predicate Redundant(last: Row, next: Row) {
    || (last.sourceLine.None? && next.sourceLine.None?)
    || (&& last.sourceLine.Some? && next.sourceLine.Some?
        && next.target - last.target == next.sourceLine.value - last.sourceLine.value)
  }

  /** No row is redundant after its predecessor. */
  predicate Collapsed(rows: seq<Row>) {
    forall i :: 0 < i < |rows| ==> KeepsRow(rows, i)
  }

  /** Row `i` is not redundant after row `i - 1`. */
  predicate KeepsRow(rows: seq<Row>, i: int)
    requires 0 < i < |rows|
  {
    !Redundant(rows[i - 1], rows[i])
  }

  /** Target lines never decrease along the rows. */
  predicate RowsSorted(rows: seq<Row>) {
    forall i, j :: 0 <= i < j < |rows| ==> rows[i].target <= rows[j].target
  }

  /** Appending a row that is not redundant after the last one keeps a list
      collapsed. */
  lemma CollapsedAppend(rows: seq<Row>, row: Row)
    ensures Collapsed(rows) && (rows == [] || !Redundant(rows[|rows| - 1], row)) ==> Collapsed(rows + [row])
  {
    var r := rows + [row];
    if Collapsed(rows) && (rows == [] || !Redundant(rows[|rows| - 1], row)) {
      forall i | 0 < i < |r| ensures KeepsRow(r, i) {
        if i < |rows| {
          assert KeepsRow(rows, i);
          assert r[i - 1] == rows[i - 1] && r[i] == rows[i];
        }
      }
    }
  }

  /** Appends `row` unless the last row makes it unnecessary, following the
      source's tests one by one. `AddRowSpec` states what the tests amount to. */
  function AddRow(rows: seq<Row>, row: Row): seq<Row> {
    if rows == [] then [row]
    else
      var last := rows[|rows| - 1];
      if row.sourceLine.None? && last.sourceLine.None? then rows
      else if row.sourceLine.None? != last.sourceLine.None? then rows + [row]
      else if row.target - last.target == row.sourceLine.value - last.sourceLine.value then rows
      else rows + [row]
  }

  /** `row` is appended exactly when the list is empty or the row is not
      redundant after the last row; otherwise the list is left as it is. So
      existing rows are never touched, and the list never gains a redundant
      pair. */
  lemma AddRowSpec(rows: seq<Row>, row: Row)
    ensures rows == [] ==> AddRow(rows, row) == [row]
    ensures rows == [] || !Redundant(rows[|rows| - 1], row) ==> AddRow(rows, row) == rows + [row]
    ensures rows != [] && Redundant(rows[|rows| - 1], row) ==> AddRow(rows, row) == rows
    ensures Collapsed(rows) ==> Collapsed(AddRow(rows, row))
  {
    CollapsedAppend(rows, row);
  }

  /** The rows a hunk's lines contribute: one candidate per line that has a
      target line number, offered to `AddRow` in order. */
  function AddLineRows(rows: seq<Row>, source: string, lines: seq<HunkLine>): seq<Row>
    decreases |lines|
  {
    if lines == [] then rows
    else
      var line := lines[0];
      var next := if line.targetLineNo.Some?
                  then AddRow(rows, Row(line.targetLineNo.value, source, line.sourceLineNo))
                  else rows;
      AddLineRows(next, source, lines[1..])
  }

  /** Offering a hunk's lines keeps the earlier rows as a prefix, keeps a
      non-empty list non-empty and keeps the list collapsed. */
  lemma {:induction false} AddLineRowsExtends(rows: seq<Row>, source: string, lines: seq<HunkLine>)
    ensures |rows| <= |AddLineRows(rows, source, lines)|
    ensures AddLineRows(rows, source, lines)[..|rows|] == rows
    ensures rows != [] ==> AddLineRows(rows, source, lines) != []
    ensures Collapsed(rows) ==> Collapsed(AddLineRows(rows, source, lines))
    decreases |lines|
  {
    if lines != [] {
      var line := lines[0];
      if line.targetLineNo.Some? {
        var row := Row(line.targetLineNo.value, source, line.sourceLineNo);
        AddRowSpec(rows, row);
        var next := AddRow(rows, row);
        AddLineRowsExtends(next, source, lines[1..]);
        assert next[..|rows|] == rows;
        PrefixOfPrefix(rows, next, AddLineRows(next, source, lines[1..]));
      } else {
        AddLineRowsExtends(rows, source, lines[1..]);
      }
    }
  }

  // ---------------------------------------------------------------------------
  // Walking the hunks

  /** The source cursor before hunk `i`: 0 before the first hunk, then the end
      (`start + length`) of the hunk before. */
  function SourceCursor(hunks: seq<Hunk>, i: nat): int
    requires i <= |hunks|
  {
    if i == 0 then 0 else hunks[i - 1].sourceStart + hunks[i - 1].sourceLength
  }

  /** The target cursor before hunk `i`, as `SourceCursor` on the target side. */
  function TargetCursor(hunks: seq<Hunk>, i: nat): int
    requires i <= |hunks|
  {
    if i == 0 then 0 else hunks[i - 1].targetStart + hunks[i - 1].targetLength
  }

  /** Hunk `i` starts at the same distance from both cursors. */
  predicate HunkConsistent(hunks: seq<Hunk>, i: nat)
    requires i < |hunks|
  {
    hunks[i].sourceStart - SourceCursor(hunks, i) == hunks[i].targetStart - TargetCursor(hunks, i)
  }

  predicate FileConsistent(file: PatchedFile) {
    forall i :: 0 <= i < |file.hunks| ==> HunkConsistent(file.hunks, i)
  }

  /** Hunks `i..` of `file`, with cursors `sc` and `tc`: for each hunk, check the
      offsets, add the row for the unchanged region before it and the rows for
      its lines, and move the cursors to its end; after the last hunk, add the
      row for the trailing unchanged region. */
  function WalkHunks(rows: seq<Row>, file: PatchedFile, i: nat, sc: int, tc: int): Result<seq<Row>, DiffError>
    requires i <= |file.hunks|
    decreases |file.hunks| - i
  {
    if i == |file.hunks| then
      Success(AddRow(rows, Row(tc, file.sourceFile, Some(sc))))
    else
      var hunk := file.hunks[i];
      if hunk.sourceStart - sc != hunk.targetStart - tc then
        Failure(MissingHunk(file.sourceFile, hunk.sourceStart, sc, file.targetFile, hunk.targetStart, tc))
      else
        var lead := AddRow(rows, Row(tc, file.sourceFile, Some(sc)));
        var body := AddLineRows(lead, file.sourceFile, hunk.lines);
        WalkHunks(body, file, i + 1, hunk.sourceStart + hunk.sourceLength, hunk.targetStart + hunk.targetLength)
  }

  /** A successful walk leaves a non-empty list that extends the rows it started
      from, collapsed if they were; a failed one reports a hunk whose source and
      target starts lie at different distances from the cursors. */
  lemma {:induction false} WalkHunksExtends(rows: seq<Row>, file: PatchedFile, i: nat, sc: int, tc: int)
    requires i <= |file.hunks|
    ensures var r := WalkHunks(rows, file, i, sc, tc);
            r.Success? ==> r.value != [] && |rows| <= |r.value| && r.value[..|rows|] == rows
    ensures var r := WalkHunks(rows, file, i, sc, tc);
            r.Success? && Collapsed(rows) ==> Collapsed(r.value)
    ensures var r := WalkHunks(rows, file, i, sc, tc);
            r.Failure? ==> r.error.sourceStart - r.error.sourceCurrent != r.error.targetStart - r.error.targetCurrent
    decreases |file.hunks| - i
  {
    var lead := AddRow(rows, Row(tc, file.sourceFile, Some(sc)));
    AddRowSpec(rows, Row(tc, file.sourceFile, Some(sc)));
    if i < |file.hunks| {
      var hunk := file.hunks[i];
      if hunk.sourceStart - sc == hunk.targetStart - tc {
        var body := AddLineRows(lead, file.sourceFile, hunk.lines);
        AddLineRowsExtends(lead, file.sourceFile, hunk.lines);
        var sc', tc' := hunk.sourceStart + hunk.sourceLength, hunk.targetStart + hunk.targetLength;
        WalkHunksExtends(body, file, i + 1, sc', tc');
        assert WalkHunks(rows, file, i, sc, tc) == WalkHunks(body, file, i + 1, sc', tc');
        var r := WalkHunks(body, file, i + 1, sc', tc');
        if r.Success? {
          PrefixOfPrefix(rows, lead, body);
          PrefixOfPrefix(rows, body, r.value);
        }
      }
    }
  }

  /** A prefix of a prefix is a prefix. */
  lemma PrefixOfPrefix(a: seq<Row>, b: seq<Row>, c: seq<Row>)
    requires |a| <= |b| <= |c| && b[..|a|] == a && c[..|b|] == b
    ensures c[..|a|] == a
  {
    assert c[..|a|] == c[..|b|][..|a|];
  }

  /** One file section, continuing whatever rows its target path already has. */
  function PatchFile(m: Mapping, file: PatchedFile): Result<Mapping, DiffError> {
    match WalkHunks(Rows(m, file.targetFile), file, 0, 0, 0)
    case Failure(e) => Failure(e)
    case Success(rows) => Success(m[file.targetFile := rows])
  }

  /** One file section adds its target path and leaves every other path's rows
      alone; the target's earlier rows become the prefix of a non-empty list,
      collapsed if they were. */
  lemma PatchFileUpdates(m: Mapping, file: PatchedFile)
    ensures var r := PatchFile(m, file);
            r.Success? ==> r.value.Keys == m.Keys + {file.targetFile}
    ensures var r := PatchFile(m, file);
            r.Success? ==> forall p :: p in m && p != file.targetFile ==> r.value[p] == m[p]
    ensures var r := PatchFile(m, file);
            r.Success? ==> var rows := r.value[file.targetFile];
              rows != [] && |Rows(m, file.targetFile)| <= |rows| && rows[..|Rows(m, file.targetFile)|] == Rows(m, file.targetFile)
    ensures var r := PatchFile(m, file);
            r.Success? && Collapsed(Rows(m, file.targetFile)) ==> Collapsed(r.value[file.targetFile])
  {
    WalkHunksExtends(Rows(m, file.targetFile), file, 0, 0, 0);
  }

  function TargetPaths(files: seq<PatchedFile>): set<string> {
    set i | 0 <= i < |files| :: files[i].targetFile
  }

  lemma TargetPathsCons(files: seq<PatchedFile>)
    requires files != []
    ensures TargetPaths(files) == {files[0].targetFile} + TargetPaths(files[1..])
  {
    forall p | p in TargetPaths(files) ensures p in {files[0].targetFile} + TargetPaths(files[1..]) {
      var i :| 0 <= i < |files| && files[i].targetFile == p;
      if i > 0 {
        assert files[1..][i - 1].targetFile == p;
      }
    }
    forall p | p in TargetPaths(files[1..]) ensures p in TargetPaths(files) {
      var i :| 0 <= i < |files[1..]| && files[1..][i].targetFile == p;
      assert files[i + 1].targetFile == p;
    }
  }

  /** The file sections in diff order, starting from `m`. The first failure
      aborts the whole build. */
  function PatchFiles(m: Mapping, files: seq<PatchedFile>): Result<Mapping, DiffError>
    decreases |files|
  {
    if files == [] then Success(m)
    else
      match PatchFile(m, files[0])
      case Failure(e) => Failure(e)
      case Success(m') => PatchFiles(m', files[1..])
  }

  /** After all the sections, the keys are the earlier keys plus every target
      path; earlier rows stay as prefixes; every new list is non-empty; and the
      lists stay collapsed if they were. */
  lemma {:induction false} PatchFilesExtends(m: Mapping, files: seq<PatchedFile>)
    ensures var r := PatchFiles(m, files);
            r.Success? ==> r.value.Keys == m.Keys + TargetPaths(files)
    ensures var r := PatchFiles(m, files);
            r.Success? ==> forall p :: p in m ==> |m[p]| <= |r.value[p]| && r.value[p][..|m[p]|] == m[p]
    ensures var r := PatchFiles(m, files);
            r.Success? ==> forall p :: p in r.value && p !in m ==> r.value[p] != []
    ensures var r := PatchFiles(m, files);
            r.Success? && (forall p :: p in m ==> Collapsed(m[p])) ==> forall p :: p in r.value ==> Collapsed(r.value[p])
    decreases |files|
  {
    if files != [] {
      var t := files[0].targetFile;
      PatchFileUpdates(m, files[0]);
      match PatchFile(m, files[0])
      case Failure(_) =>
      case Success(m') =>
        PatchFilesExtends(m', files[1..]);
        TargetPathsCons(files);
        var r := PatchFiles(m', files[1..]);
        assert PatchFiles(m, files) == r;
        if r.Success? {
          forall p | p in m
            ensures |m[p]| <= |r.value[p]| && r.value[p][..|m[p]|] == m[p]
          {
            if p == t {
              PrefixOfPrefix(m[p], m'[p], r.value[p]);
            }
          }
        }
    }
  }

  /** The whole diff. Every patched target path gets a non-empty, collapsed row
      list; no other path gets any. */
  function FromPatchSet(files: seq<PatchedFile>): (r: Result<Mapping, DiffError>)
    ensures r.Success? ==> r.value.Keys == TargetPaths(files)
    ensures r.Success? ==> forall p :: p in r.value ==> r.value[p] != [] && Collapsed(r.value[p])
  {
    PatchFilesExtends(map[], files);
    PatchFiles(map[], files)
  }

  // ---------------------------------------------------------------------------
  // Lookup

  function Targets(rows: seq<Row>): (t: seq<int>)
    ensures |t| == |rows|
    ensures forall i :: 0 <= i < |rows| ==> t[i] == rows[i].target
  {
    seq(|rows|, i requires 0 <= i < |rows| => rows[i].target)
  }

  /** What one breakpoint says about `line`. */
  function Translate(row: Row, line: int): (string, Option<int>) {
    if row.sourceLine.None? then (row.source, None)
    else (row.source, Some(row.sourceLine.value + (line - row.target)))
  }

  /** The index of the last row whose target is at most `line`, or 0 when there
      is none: a linear reference for what the binary search should find. */
  function LastAtMost(rows: seq<Row>, line: int): (i: nat)
    requires rows != []
    ensures i < |rows|
    ensures rows[i].target <= line || i == 0
    ensures forall j :: i < j < |rows| ==> line < rows[j].target
    decreases |rows|
  {
    if |rows| == 1 || rows[|rows| - 1].target <= line then |rows| - 1
    else LastAtMost(rows[..|rows| - 1], line)
  }

  /** Lookup of `line` in one file's rows: the identity when there are none;
      otherwise the row just before `bisect_right` of the targets, the index
      clamped at 0. */
  function GetInRows(rows: seq<Row>, filename: string, line: int): (r: (string, Option<int>))
    ensures rows == [] ==> r == (filename, Some(line))
    ensures rows != [] ==> exists i :: 0 <= i < |rows| && r == Translate(rows[i], line)
  {
    if rows == [] then (filename, Some(line))
    else
      var index := Bisect.BisectRight(Targets(rows), line, 0, |rows|) - 1;
      var index := if index < 0 then 0 else index;
      Translate(rows[index], line)
  }

  /** `mapper[filename][line]`: a file the diff does not touch maps to itself. */
  function Get(m: Mapping, filename: string, line: int): (r: (string, Option<int>))
    ensures filename !in m ==> r == (filename, Some(line))
  {
    GetInRows(Rows(m, filename), filename, line)
  }
}

=== FILE: diff_mapper_lemmas.dfy ===
/** What the diff mapper promises: when it fails, what its first rows are, that
    its rows stay sorted for a well-formed diff, that lookup finds the last
    breakpoint at or before the line, and that dropping a redundant row never
    changes an answer. */
module DiffMapperLemmas {
  import opened Wrappers
  import Bisect
  import opened DiffMapper

  // ---------------------------------------------------------------------------
  // Failure

  /** From cursors that are the true cursors before hunk `i`, the walk fails
      exactly when one of the hunks `i..` is inconsistent. */
  lemma {:induction false} WalkHunksFailsIff(rows: seq<Row>, file: PatchedFile, i: nat)
    requires i <= |file.hunks|
    ensures WalkHunks(rows, file, i, SourceCursor(file.hunks, i), TargetCursor(file.hunks, i)).Failure?
        <==> exists k :: i <= k < |file.hunks| && !HunkConsistent(file.hunks, k)
    decreases |file.hunks| - i
  {
    if i == |file.hunks| {
      WalkHunksEnd(rows, file);
    } else if HunkConsistent(file.hunks, i) {
      var body := WalkHunksStep(rows, file, i);
      WalkHunksFailsIff(body, file, i + 1);
      InconsistentPastConsistent(file.hunks, i);
    } else {
      WalkHunksStepFails(rows, file, i);
      assert i <= i < |file.hunks| && !HunkConsistent(file.hunks, i);
    }
  }

  /** After the last hunk the walk only adds the trailing row, and succeeds. */
  lemma WalkHunksEnd(rows: seq<Row>, file: PatchedFile)
    ensures WalkHunks(rows, file, |file.hunks|, SourceCursor(file.hunks, |file.hunks|), TargetCursor(file.hunks, |file.hunks|)).Success?
  {
  }

  /** When hunk `i` is consistent, an inconsistent hunk from `i` on is one from
      `i + 1` on. */
  lemma InconsistentPastConsistent(hunks: seq<Hunk>, i: nat)
    requires i < |hunks| && HunkConsistent(hunks, i)
    ensures (exists k :: i <= k < |hunks| && !HunkConsistent(hunks, k))
        <==> (exists k :: i + 1 <= k < |hunks| && !HunkConsistent(hunks, k))
  {
    if exists k :: i <= k < |hunks| && !HunkConsistent(hunks, k) {
      var k :| i <= k < |hunks| && !HunkConsistent(hunks, k);
      assert i + 1 <= k;
    }
  }

  /** Past a consistent hunk `i`, the walk continues from the rows that hunk
      adds, with the cursors at the hunk's end. Those rows extend `rows`, and
      they stay sorted when `rows` are and the hunk is well formed. */
  lemma WalkHunksStep(rows: seq<Row>, file: PatchedFile, i: nat) returns (body: seq<Row>)
    requires i < |file.hunks| && HunkConsistent(file.hunks, i)
    ensures WalkHunks(rows, file, i, SourceCursor(file.hunks, i), TargetCursor(file.hunks, i))
         == WalkHunks(body, file, i + 1, SourceCursor(file.hunks, i + 1), TargetCursor(file.hunks, i + 1))
    ensures WellFormedHunk(file.hunks, i) && RowsSorted(rows) && AllAtMost(rows, TargetCursor(file.hunks, i)) ==>
              RowsSorted(body) && AllAtMost(body, TargetCursor(file.hunks, i + 1))
  {
    var lead := Row(TargetCursor(file.hunks, i), file.sourceFile, Some(SourceCursor(file.hunks, i)));
    body := AddLineRows(AddRow(rows, lead), file.sourceFile, file.hunks[i].lines);
    WalkHunksUnfold(rows, file, i);
    if WellFormedHunk(file.hunks, i) && RowsSorted(rows) && AllAtMost(rows, TargetCursor(file.hunks, i)) {
      HunkRowsSorted(rows, file, i);
    }
  }

  lemma WalkHunksUnfold(rows: seq<Row>, file: PatchedFile, i: nat)
    requires i < |file.hunks| && HunkConsistent(file.hunks, i)
    ensures var lead := Row(TargetCursor(file.hunks, i), file.sourceFile, Some(SourceCursor(file.hunks, i)));
            var body := AddLineRows(AddRow(rows, lead), file.sourceFile, file.hunks[i].lines);
            WalkHunks(rows, file, i, SourceCursor(file.hunks, i), TargetCursor(file.hunks, i))
            == WalkHunks(body, file, i + 1, SourceCursor(file.hunks, i + 1), TargetCursor(file.hunks, i + 1))
  {
    var hunk := file.hunks[i];
    var sc, tc := SourceCursor(file.hunks, i), TargetCursor(file.hunks, i);
    assert SourceCursor(file.hunks, i + 1) == hunk.sourceStart + hunk.sourceLength;
    assert TargetCursor(file.hunks, i + 1) == hunk.targetStart + hunk.targetLength;
    assert hunk.sourceStart - sc == hunk.targetStart - tc;
  }

  /** An inconsistent hunk `i` ends the walk in failure. */
  lemma WalkHunksStepFails(rows: seq<Row>, file: PatchedFile, i: nat)
    requires i < |file.hunks| && !HunkConsistent(file.hunks, i)
    ensures WalkHunks(rows, file, i, SourceCursor(file.hunks, i), TargetCursor(file.hunks, i)).Failure?
  {
  }

  /** Building from a diff fails exactly when some file section has a hunk whose
      start is off the running offset (cursors start at 0 and move to
      `start + length` after each hunk). */
  lemma {:induction false} PatchFilesFailsIff(m: Mapping, files: seq<PatchedFile>)
    ensures PatchFiles(m, files).Failure? <==> exists j :: 0 <= j < |files| && !FileConsistent(files[j])
    decreases |files|
  {
    if files != [] {
      PatchFileFailsIff(m, files[0]);
      if FileConsistent(files[0]) {
        var m' := PatchFilesStep(m, files);
        PatchFilesFailsIff(m', files[1..]);
        InconsistentPastConsistentFile(files);
      } else {
        PatchFilesHeadFails(m, files);
        assert 0 <= 0 < |files| && !FileConsistent(files[0]);
      }
    }
  }

  /** One file section fails exactly when one of its hunks is inconsistent. */
  lemma PatchFileFailsIff(m: Mapping, file: PatchedFile)
    ensures PatchFile(m, file).Failure? <==> !FileConsistent(file)
  {
    WalkHunksFailsIff(Rows(m, file.targetFile), file, 0);
  }

  /** A failing first file section fails the whole build. */
  lemma PatchFilesHeadFails(m: Mapping, files: seq<PatchedFile>)
    requires files != [] && PatchFile(m, files[0]).Failure?
    ensures PatchFiles(m, files).Failure?
  {
  }

  /** When the first file section is consistent, an inconsistent section is one
      of the rest. */
  lemma InconsistentPastConsistentFile(files: seq<PatchedFile>)
    requires files != [] && FileConsistent(files[0])
    ensures (exists j :: 0 <= j < |files| && !FileConsistent(files[j]))
        <==> (exists j :: 0 <= j < |files[1..]| && !FileConsistent(files[1..][j]))
  {
    if exists j :: 0 <= j < |files| && !FileConsistent(files[j]) {
      var j :| 0 <= j < |files| && !FileConsistent(files[j]);
      assert files[1..][j - 1] == files[j];
    }
    if exists j :: 0 <= j < |files[1..]| && !FileConsistent(files[1..][j]) {
      var j :| 0 <= j < |files[1..]| && !FileConsistent(files[1..][j]);
      assert files[j + 1] == files[1..][j];
    }
  }

  lemma FromPatchSetFailsIff(files: seq<PatchedFile>)
    ensures FromPatchSet(files).Failure? <==> exists j :: 0 <= j < |files| && !FileConsistent(files[j])
  {
    PatchFilesFailsIff(map[], files);
  }

  // ---------------------------------------------------------------------------
  // The first row of a target path

  /** A walk that starts from no rows opens with the row `(0, source, 0)`. */
  lemma WalkHunksFromNothing(file: PatchedFile)
    requires WalkHunks([], file, 0, 0, 0).Success?
    ensures var rows := WalkHunks([], file, 0, 0, 0).value;
            rows != [] && rows[0] == Row(0, file.sourceFile, Some(0))
  {
    var lead := Row(0, file.sourceFile, Some(0));
    AddRowSpec([], lead);
    WalkHunksExtends([], file, 0, 0, 0);
    if |file.hunks| > 0 {
      var hunk := file.hunks[0];
      var body := AddLineRows([lead], file.sourceFile, hunk.lines);
      AddLineRowsExtends([lead], file.sourceFile, hunk.lines);
      assert body[..1] == [lead];
      var sc, tc := hunk.sourceStart + hunk.sourceLength, hunk.targetStart + hunk.targetLength;
      var rest := WalkHunks(body, file, 1, sc, tc);
      assert WalkHunks([], file, 0, 0, 0) == rest;
      WalkHunksExtends(body, file, 1, sc, tc);
      assert rest.value[..|body|] == body;
      assert rest.value[0] == rest.value[..|body|][0];
    }
  }

  /** The first time a target path appears in the diff its row list begins with
      `(0, source path, 0)`, and later sections for the same path only append. */
  lemma {:induction false} PatchFilesFirstRow(m: Mapping, files: seq<PatchedFile>, j: nat)
    requires PatchFiles(m, files).Success?
    requires j < |files| && files[j].targetFile !in m
    requires forall i :: 0 <= i < j ==> files[i].targetFile != files[j].targetFile
    ensures var r := PatchFiles(m, files).value;
            files[j].targetFile in r && r[files[j].targetFile] != [] &&
            r[files[j].targetFile][0] == Row(0, files[j].sourceFile, Some(0))
    decreases |files|
  {
    var m' := PatchFilesStep(m, files);
    var rest := files[1..];
    var p := files[j].targetFile;
    if j == 0 {
      PatchFilesKeepHead(m', rest, p);
    } else {
      assert rest[j - 1] == files[j];
      assert files[0].targetFile != p;
      forall i | 0 <= i < j - 1
        ensures rest[i].targetFile != p
      {
        assert rest[i] == files[i + 1];
      }
      PatchFilesFirstRow(m', rest, j - 1);
    }
  }

  /** Building a diff of several files goes through the first file, giving `m'`,
      then the rest. The first file's section adds its target path and, when the
      path is new, opens its rows with `(0, source, 0)`. */
  lemma PatchFilesStep(m: Mapping, files: seq<PatchedFile>) returns (m': Mapping)
    requires files != [] && PatchFile(m, files[0]).Success?
    ensures PatchFiles(m, files) == PatchFiles(m', files[1..])
    ensures m'.Keys == m.Keys + {files[0].targetFile}
    ensures files[0].targetFile !in m ==>
              m'[files[0].targetFile] != [] && m'[files[0].targetFile][0] == Row(0, files[0].sourceFile, Some(0))
  {
    m' := PatchFile(m, files[0]).value;
    PatchFileUpdates(m, files[0]);
    if files[0].targetFile !in m {
      PatchFileFirstRow(m, files[0]);
    }
  }

  /** A file section for a new target path opens its list with `(0, source, 0)`. */
  lemma PatchFileFirstRow(m: Mapping, file: PatchedFile)
    requires file.targetFile !in m && PatchFile(m, file).Success?
    ensures var rows := PatchFile(m, file).value[file.targetFile];
            rows != [] && rows[0] == Row(0, file.sourceFile, Some(0))
  {
    WalkHunksFromNothing(file);
    assert Rows(m, file.targetFile) == [];
  }

  /** Later file sections never change the first row of a path already present. */
  lemma PatchFilesKeepHead(m: Mapping, files: seq<PatchedFile>, p: string)
    requires PatchFiles(m, files).Success? && p in m && m[p] != []
    ensures var r := PatchFiles(m, files).value;
            p in r && r[p] != [] && r[p][0] == m[p][0]
  {
    PatchFilesExtends(m, files);
    var r := PatchFiles(m, files).value;
    assert r[p][..|m[p]|] == m[p];
    assert r[p][..|m[p]|][0] == r[p][0];
  }

  lemma FromPatchSetFirstRow(files: seq<PatchedFile>, j: nat)
    requires FromPatchSet(files).Success?
    requires j < |files|
    requires forall i :: 0 <= i < j ==> files[i].targetFile != files[j].targetFile
    ensures FromPatchSet(files).value[files[j].targetFile][0] == Row(0, files[j].sourceFile, Some(0))
  {
    PatchFilesFirstRow(map[], files, j);
  }

  // ---------------------------------------------------------------------------
  // Sorted rows for a well-formed diff

  predicate AllAtMost(rows: seq<Row>, bound: int) {
    forall i :: 0 <= i < |rows| ==> rows[i].target <= bound
  }

  /** The target line numbers of `lines` never decrease and lie in `lo..hi`. */
  predicate LinesWithin(lines: seq<HunkLine>, lo: int, hi: int) {
    && (forall i :: 0 <= i < |lines| && lines[i].targetLineNo.Some? ==>
          lo <= lines[i].targetLineNo.value <= hi)
    && (forall i, j :: 0 <= i < j < |lines| && lines[i].targetLineNo.Some? && lines[j].targetLineNo.Some? ==>
          lines[i].targetLineNo.value <= lines[j].targetLineNo.value)
  }

  /** What a diff parser produces for a real diff: each hunk starts at or after
      the target cursor, has a non-negative length, and numbers its target lines
      in order within its range. */
  predicate WellFormedHunks(hunks: seq<Hunk>) {
    forall i :: 0 <= i < |hunks| ==> WellFormedHunk(hunks, i)
  }

  predicate WellFormedHunk(hunks: seq<Hunk>, i: nat)
    requires i < |hunks|
  {
    && TargetCursor(hunks, i) <= hunks[i].targetStart
    && 0 <= hunks[i].targetLength
    && LinesWithin(hunks[i].lines, hunks[i].targetStart, hunks[i].targetStart + hunks[i].targetLength)
  }

  lemma AddRowSorted(rows: seq<Row>, row: Row)
    requires RowsSorted(rows) && AllAtMost(rows, row.target)
    ensures RowsSorted(AddRow(rows, row)) && AllAtMost(AddRow(rows, row), row.target)
  {
    AddRowSpec(rows, row);
    if rows == [] || !Redundant(rows[|rows| - 1], row) {
      AppendSorted(rows, row);
    }
  }

  lemma {:induction false} AddLineRowsSorted(rows: seq<Row>, source: string, lines: seq<HunkLine>, lo: int, hi: int)
    requires RowsSorted(rows) && AllAtMost(rows, lo) && lo <= hi
    requires LinesWithin(lines, lo, hi)
    ensures RowsSorted(AddLineRows(rows, source, lines)) && AllAtMost(AddLineRows(rows, source, lines), hi)
    decreases |lines|
  {
    if lines != [] {
      var line := lines[0];
      if line.targetLineNo.Some? {
        var t := line.targetLineNo.value;
        AddRowSorted(rows, Row(t, source, line.sourceLineNo));
        assert LinesWithin(lines[1..], t, hi) by {
          forall k | 0 <= k < |lines[1..]| && lines[1..][k].targetLineNo.Some?
            ensures t <= lines[1..][k].targetLineNo.value
          {
            assert lines[1..][k] == lines[k + 1];
          }
        }
        AddLineRowsSorted(AddRow(rows, Row(t, source, line.sourceLineNo)), source, lines[1..], t, hi);
      } else {
        AddLineRowsSorted(rows, source, lines[1..], lo, hi);
      }
    }
  }

  /** The rows added for hunk `i` (the row before it and its line rows) keep the
      list sorted and end at most at the hunk's end. */
  lemma HunkRowsSorted(rows: seq<Row>, file: PatchedFile, i: nat)
    requires i < |file.hunks| && WellFormedHunk(file.hunks, i)
    requires RowsSorted(rows) && AllAtMost(rows, TargetCursor(file.hunks, i))
    ensures var lead := Row(TargetCursor(file.hunks, i), file.sourceFile, Some(SourceCursor(file.hunks, i)));
            var body := AddLineRows(AddRow(rows, lead), file.sourceFile, file.hunks[i].lines);
            RowsSorted(body) && AllAtMost(body, TargetCursor(file.hunks, i + 1))
  {
    var lead := Row(TargetCursor(file.hunks, i), file.sourceFile, Some(SourceCursor(file.hunks, i)));
    var hunk := file.hunks[i];
    var hi := hunk.targetStart + hunk.targetLength;
    AddRowSorted(rows, lead);
    AddLineRowsSorted(AddRow(rows, lead), file.sourceFile, hunk.lines, hunk.targetStart, hi);
  }

  lemma {:induction false} WalkHunksSorted(rows: seq<Row>, file: PatchedFile, i: nat)
    requires i <= |file.hunks| && WellFormedHunks(file.hunks)
    requires RowsSorted(rows) && AllAtMost(rows, TargetCursor(file.hunks, i))
    requires WalkHunks(rows, file, i, SourceCursor(file.hunks, i), TargetCursor(file.hunks, i)).Success?
    ensures RowsSorted(WalkHunks(rows, file, i, SourceCursor(file.hunks, i), TargetCursor(file.hunks, i)).value)
    decreases |file.hunks| - i
  {
    if i == |file.hunks| {
      AddRowSorted(rows, Row(TargetCursor(file.hunks, i), file.sourceFile, Some(SourceCursor(file.hunks, i))));
    } else {
      assert WellFormedHunk(file.hunks, i);
      WalkHunksFailsIff(rows, file, i);
      assert HunkConsistent(file.hunks, i);
      var body := WalkHunksStep(rows, file, i);
      WalkHunksSorted(body, file, i + 1);
    }
  }

  lemma {:induction false} PatchFilesSorted(m: Mapping, files: seq<PatchedFile>)
    requires PatchFiles(m, files).Success?
    requires forall p :: p in m ==> RowsSorted(m[p])
    requires forall j :: 0 <= j < |files| ==> files[j].targetFile !in m && WellFormedHunks(files[j].hunks)
    requires forall i, j :: 0 <= i < j < |files| ==> files[i].targetFile != files[j].targetFile
    ensures forall p :: p in PatchFiles(m, files).value ==> RowsSorted(PatchFiles(m, files).value[p])
    decreases |files|
  {
    if files != [] {
      var file := files[0];
      WalkHunksSorted([], file, 0);
      var m' := PatchFile(m, file).value;
      forall j | 0 <= j < |files[1..]|
        ensures files[1..][j].targetFile !in m' && WellFormedHunks(files[1..][j].hunks)
      {
        assert files[1..][j] == files[j + 1];
      }
      PatchFilesSorted(m', files[1..]);
    }
  }

  /** A well-formed diff that names each target path once yields sorted rows for
      every path, which is what lookup's binary search assumes. */
  lemma FromPatchSetSorted(files: seq<PatchedFile>)
    requires FromPatchSet(files).Success?
    requires forall j :: 0 <= j < |files| ==> WellFormedHunks(files[j].hunks)
    requires forall i, j :: 0 <= i < j < |files| ==> files[i].targetFile != files[j].targetFile
    ensures forall p :: p in FromPatchSet(files).value ==> RowsSorted(FromPatchSet(files).value[p])
  {
    PatchFilesSorted(map[], files);
  }

  // ---------------------------------------------------------------------------
  // Lookup

  /** On sorted rows the lookup uses the last row whose target is at most the
      line, or the first row when every row lies after the line. */
  lemma GetIsLastAtMost(rows: seq<Row>, filename: string, line: int)
    requires rows != [] && RowsSorted(rows)
    ensures GetInRows(rows, filename, line) == Translate(rows[LastAtMost(rows, line)], line)
  {
    var keys := Targets(rows);
    assert Bisect.Sorted(keys);
    Bisect.BisectRightSplits(keys, line, 0, |rows|);
    var k := Bisect.BisectRight(keys, line, 0, |rows|);
    var index := if k - 1 < 0 then 0 else k - 1;
    assert GetInRows(rows, filename, line) == Translate(rows[index], line);
    LastAtMostIsSplit(rows, line, k);
  }

  /** The linear reference and the split point agree on sorted rows. */
  lemma LastAtMostIsSplit(rows: seq<Row>, line: int, k: int)
    requires rows != []
    requires Bisect.SplitsAt(Targets(rows), line, k)
    ensures LastAtMost(rows, line) == if k - 1 < 0 then 0 else k - 1
  {
    var keys := Targets(rows);
    var i := LastAtMost(rows, line);
    assert keys[i] == rows[i].target;
    if k > 0 {
      assert keys[k - 1] == rows[k - 1].target;
    }
  }

  /** Appending a row that lies at or after every existing row makes it the
      answer for every line from its own target on. */
  lemma LastAtMostAppend(rows: seq<Row>, row: Row, line: int)
    requires AllAtMost(rows, row.target)
    ensures row.target <= line ==> LastAtMost(rows + [row], line) == |rows|
    ensures line < row.target && rows != [] ==> LastAtMost(rows + [row], line) == LastAtMost(rows, line)
  {
    var extended := rows + [row];
    if line < row.target && rows != [] {
      assert extended[..|extended| - 1] == rows;
    }
  }

  /** Dropping a redundant row is safe: on sorted rows, with the new row at or
      after the last one and from the same source file, the list `AddRow`
      returns answers every lookup exactly as the list with the row appended. */
  lemma AddRowKeepsLookup(rows: seq<Row>, row: Row, filename: string, line: int)
    requires RowsSorted(rows) && AllAtMost(rows, row.target)
    requires rows != [] ==> rows[|rows| - 1].source == row.source
    ensures GetInRows(AddRow(rows, row), filename, line) == GetInRows(rows + [row], filename, line)
  {
    AddRowSpec(rows, row);
    if rows != [] && Redundant(rows[|rows| - 1], row) {
      RedundantKeepsLookup(rows, row, filename, line);
    }
  }

  /** The lookup on rows whose last row makes `row` redundant is the lookup on
      the rows with `row` appended. */
  lemma RedundantKeepsLookup(rows: seq<Row>, row: Row, filename: string, line: int)
    requires RowsSorted(rows) && AllAtMost(rows, row.target)
    requires rows != [] && rows[|rows| - 1].source == row.source && Redundant(rows[|rows| - 1], row)
    ensures GetInRows(rows, filename, line) == GetInRows(rows + [row], filename, line)
  {
    var extended := rows + [row];
    AppendSorted(rows, row);
    GetIsLastAtMost(rows, filename, line);
    GetIsLastAtMost(extended, filename, line);
    LastAtMostAppend(rows, row, line);
    if row.target <= line {
      assert rows[|rows| - 1].target <= line;
      assert LastAtMost(rows, line) == |rows| - 1;
    }
  }

  /** After `AddRow`, a lookup at the new row's own target line yields the new
      row's source line, or None for an addition row. */
  lemma AddRowLookupAtNewRow(rows: seq<Row>, row: Row, filename: string)
    requires RowsSorted(rows) && AllAtMost(rows, row.target)
    requires rows != [] ==> rows[|rows| - 1].source == row.source
    ensures GetInRows(AddRow(rows, row), filename, row.target) == (row.source, row.sourceLine)
  {
    AddRowKeepsLookup(rows, row, filename, row.target);
    LookupAtAppended(rows, row, filename);
  }

  /** Rows that agree in every target and source line, whatever their source
      paths. */
  predicate SameLines(a: seq<Row>, b: seq<Row>) {
    && |a| == |b|
    && forall i :: 0 <= i < |a| ==> a[i].target == b[i].target && a[i].sourceLine == b[i].sourceLine
  }

  /** The line a lookup gives depends only on the rows' targets and source
      lines, not on their source paths. */
  lemma SameLinesLookup(a: seq<Row>, b: seq<Row>, filename: string, line: int)
    requires SameLines(a, b)
    ensures GetInRows(a, filename, line).1 == GetInRows(b, filename, line).1
  {
    if a != [] {
      assert Targets(a) == Targets(b);
    }
  }

  /** Sortedness and a bound on the targets carry over between rows with the
      same lines. */
  lemma SameLinesSorted(a: seq<Row>, b: seq<Row>, bound: int)
    requires SameLines(a, b) && RowsSorted(b) && AllAtMost(b, bound)
    ensures RowsSorted(a) && AllAtMost(a, bound)
  {
  }

  /** Appending the same row keeps the lines the same. */
  lemma SameLinesAppend(a: seq<Row>, b: seq<Row>, row: Row)
    requires SameLines(a, b)
    ensures SameLines(a + [row], b + [row])
  {
  }

  /** The rows with the last one's source path replaced. */
  function WithLastSource(rows: seq<Row>, source: string): (r: seq<Row>)
    requires rows != []
    ensures SameLines(r, rows)
    ensures r[..|rows| - 1] == rows[..|rows| - 1] && r[|rows| - 1].source == source
  {
    rows[..|rows| - 1] + [rows[|rows| - 1].(source := source)]
  }

  /** Whatever the source paths, dropping a redundant row changes no looked-up
      line: on sorted rows, with the new row at or after the last one, the list
      `AddRow` returns gives every line the same source line as the list with
      the row appended. */
  lemma AddRowKeepsLineLookup(rows: seq<Row>, row: Row, filename: string, line: int)
    requires RowsSorted(rows) && AllAtMost(rows, row.target)
    ensures GetInRows(AddRow(rows, row), filename, line).1 == GetInRows(rows + [row], filename, line).1
  {
    AddRowSpec(rows, row);
    if rows != [] && Redundant(rows[|rows| - 1], row) {
      var renamed := WithLastSource(rows, row.source);
      SameLinesSorted(renamed, rows, row.target);
      RedundantKeepsLookup(renamed, row, filename, line);
      SameLinesLookup(renamed, rows, filename, line);
      SameLinesAppend(renamed, rows, row);
      SameLinesLookup(renamed + [row], rows + [row], filename, line);
    }
  }

  /** After `AddRow`, a lookup at the new row's own target line yields the new
      row's source line, or None for an addition row, whatever the source paths. */
  lemma AddRowLineAtNewRow(rows: seq<Row>, row: Row, filename: string)
    requires RowsSorted(rows) && AllAtMost(rows, row.target)
    ensures GetInRows(AddRow(rows, row), filename, row.target).1 == row.sourceLine
  {
    AddRowKeepsLineLookup(rows, row, filename, row.target);
    LookupAtAppended(rows, row, filename);
  }

  /** When the new row is redundant it is dropped with its source path: a lookup
      at its target reports the last kept row's path. Two file sections with the
      same target path but different source paths therefore report the first
      section's path past the second section's first hunk. */
  lemma AddRowDropsSource(rows: seq<Row>, row: Row, filename: string)
    requires RowsSorted(rows) && AllAtMost(rows, row.target)
    requires rows != [] && Redundant(rows[|rows| - 1], row)
    ensures GetInRows(AddRow(rows, row), filename, row.target) == (rows[|rows| - 1].source, row.sourceLine)
  {
    AddRowSpec(rows, row);
    AddRowLineAtNewRow(rows, row, filename);
    GetIsLastAtMost(rows, filename, row.target);
    assert LastAtMost(rows, row.target) == |rows| - 1;
  }

  /** A lookup at the target of a row appended at the end translates by that
      row. */
  lemma LookupAtAppended(rows: seq<Row>, row: Row, filename: string)
    requires RowsSorted(rows) && AllAtMost(rows, row.target)
    ensures GetInRows(rows + [row], filename, row.target) == (row.source, row.sourceLine)
  {
    var extended := rows + [row];
    AppendSorted(rows, row);
    GetIsLastAtMost(extended, filename, row.target);
    LastAtMostAppend(rows, row, row.target);
    assert extended[|rows|] == row;
  }

  /** A row at or after every existing row keeps the list sorted, and bounded
      by that row's target. */
  lemma AppendSorted(rows: seq<Row>, row: Row)
    requires RowsSorted(rows) && AllAtMost(rows, row.target)
    ensures RowsSorted(rows + [row]) && AllAtMost(rows + [row], row.target)
  {
    var r := rows + [row];
    forall i, j | 0 <= i < j < |r| ensures r[i].target <= r[j].target {
      if j < |rows| {
        assert r[i] == rows[i] && r[j] == rows[j];
      } else {
        assert r[i] == rows[i] && r[j] == row;
      }
    }
  }

  // ---------------------------------------------------------------------------
  // A worked example: hunk `@@ -10,3 +10,5 @@` adding target lines 11 and 12
  // between context lines.

  function ExampleLines(): seq<HunkLine> {
    [HunkLine(Some(10), Some(10)), HunkLine(None, Some(11)), HunkLine(None, Some(12)),
     HunkLine(Some(11), Some(13)), HunkLine(Some(12), Some(14))]
  }

  function ExampleFile(): PatchedFile {
    PatchedFile("f", "f", [Hunk(10, 3, 10, 5, ExampleLines())])
  }

  /** The hunk's five lines collapse to a row for the addition and a row for the
      shifted context after it. */
  lemma ExampleLineRows()
    ensures AddLineRows([Row(0, "f", Some(0))], "f", ExampleLines())
         == [Row(0, "f", Some(0)), Row(11, "f", None), Row(13, "f", Some(11))]
  {
    var r0, r11, r13 := Row(0, "f", Some(0)), Row(11, "f", None), Row(13, "f", Some(11));
    var l0, l1, l2, l3, l4 := HunkLine(Some(10), Some(10)), HunkLine(None, Some(11)), HunkLine(None, Some(12)),
                              HunkLine(Some(11), Some(13)), HunkLine(Some(12), Some(14));
    assert ExampleLines() == [l0, l1, l2, l3, l4];
    assert [l0, l1, l2, l3, l4][1..] == [l1, l2, l3, l4];
    assert [l1, l2, l3, l4][1..] == [l2, l3, l4];
    assert [l2, l3, l4][1..] == [l3, l4];
    assert [l3, l4][1..] == [l4];
    assert [l4][1..] == [];
    assert AddRow([r0], Row(10, "f", Some(10))) == [r0];
    assert AddRow([r0], r11) == [r0] + [r11] == [r0, r11];
    assert [r0, r11][1] == r11;
    assert AddRow([r0, r11], Row(12, "f", None)) == [r0, r11];
    assert AddRow([r0, r11], r13) == [r0, r11] + [r13] == [r0, r11, r13];
    assert [r0, r11, r13][2] == r13;
    assert AddRow([r0, r11, r13], Row(14, "f", Some(12))) == [r0, r11, r13];
  }

  function ExampleRows(): seq<Row> {
    [Row(0, "f", Some(0)), Row(11, "f", None), Row(13, "f", Some(11))]
  }

  /** Walking the one hunk gives those three rows: the trailing row is
      redundant too. */
  lemma ExampleWalk()
    ensures WalkHunks([], ExampleFile(), 0, 0, 0) == Success(ExampleRows())
  {
    var file, rows := ExampleFile(), ExampleRows();
    ExampleLineRows();
    assert AddRow([], Row(0, "f", Some(0))) == [Row(0, "f", Some(0))];
    assert WalkHunks([], file, 0, 0, 0) == WalkHunks(rows, file, 1, 13, 15);
    assert rows[2] == Row(13, "f", Some(11));
    assert AddRow(rows, Row(15, "f", Some(13))) == rows;
  }

  /** Building from the one-file diff gives exactly those rows for "f". */
  lemma ExampleBuild()
    ensures FromPatchSet([ExampleFile()]) == Success(map["f" := ExampleRows()])
  {
    var file, rows := ExampleFile(), ExampleRows();
    ExampleWalk();
    var m := map["f" := rows];
    assert Rows(map[], "f") == [];
    assert PatchFile(map[], file) == Success(m);
    assert [file][1..] == [];
    assert PatchFiles(map[], [file]) == PatchFiles(m, []);
  }

  /** On those rows, line 13 comes from source line 11 and line 11 is new. */
  lemma ExampleLookups()
    ensures GetInRows(ExampleRows(), "f", 13) == ("f", Some(11))
    ensures GetInRows(ExampleRows(), "f", 11) == ("f", None)
  {
    var rows := ExampleRows();
    assert RowsSorted(rows) by {
      forall i, j | 0 <= i < j < |rows| ensures rows[i].target <= rows[j].target {
        assert rows[0].target == 0 && rows[1].target == 11 && rows[2].target == 13;
      }
    }
    GetIsLastAtMost(rows, "f", 13);
    assert LastAtMost(rows, 13) == 2;
    GetIsLastAtMost(rows, "f", 11);
    assert rows[..2] == [Row(0, "f", Some(0)), Row(11, "f", None)];
    assert LastAtMost(rows, 11) == 1;
  }

  /** Line 13 now comes from source line 11, line 11 is new, and a file the
      diff does not touch maps to itself. */
  lemma InsertionExample()
    ensures FromPatchSet([ExampleFile()]).Success?
    ensures Get(FromPatchSet([ExampleFile()]).value, "f", 13) == ("f", Some(11))
    ensures Get(FromPatchSet([ExampleFile()]).value, "f", 11) == ("f", None)
    ensures Get(FromPatchSet([ExampleFile()]).value, "g", 7) == ("g", Some(7))
  {
    var m := map["f" := ExampleRows()];
    ExampleBuild();
    ExampleLookups();
    assert Rows(m, "f") == ExampleRows();
    assert "g" !in m;
  }
}

=== FILE: documents.dfy ===
/** What the report readers get from their parsers, and how they fail.

    An LCOV tracefile arrives as the records `lcovparse` produces: a file name
    and its `DA` lines, each a line number and a hit count. A Cobertura XML
    report arrives as the parts of the element tree the readers visit: the root
    tag, the text of each `./sources/source` element (None for an empty
    element), and the `./packages/package/classes/class` elements in document
    order with their `filename` attribute and their `./lines/line` children.
    Attributes are kept as the raw strings `Element.get` returns, None when the
    attribute is absent. */
module Documents {
  import opened Wrappers

  datatype LcovLine = LcovLine(line: int, hit: int)

  datatype LcovRecord = LcovRecord(file: string, lines: seq<LcovLine>)

  datatype XmlLine = XmlLine(
    number: Option<string>,
    hits: Option<string>,
    branch: Option<string>,
    conditionCoverage: Option<string>)

  datatype XmlClass = XmlClass(filename: Option<string>, lines: seq<XmlLine>)

  datatype XmlDocument = XmlDocument(rootTag: string, sources: seq<Option<string>>, classes: seq<XmlClass>)

  /** The two `os.path` functions the readers call, left uninterpreted:
      `relpath(path, start)`, None where it raises ValueError, and
      `join(directory, name)`, None where it raises. The directory is None for
      an empty `<source/>` element; Python 2's `posixpath.join` still gets
      through then when the name is absolute, since it never looks at the
      directory. */
  datatype Paths = Paths(relpath: (string, string) -> Option<string>, join: (Option<string>, string) -> Option<string>)

  /** The exceptions a read can end in. */
  datatype ReadError =
    | RelPathFailed(path: string)                 // os.path.relpath raised ValueError
    | JoinFailed                                  // os.path.join of a missing class filename, or one that raises
    | MissingConditionCoverage                    // a branch line without (or, where checked, with an empty) condition-coverage
    | UnparsableConditionCoverage(text: string)   // the pattern does not match
    | ZeroTotal(text: string)                     // the matched condition count is 0
    | BadHits(text: string)                       // int() rejects the hits attribute
    | BadRootTag(tag: string)                     // the root element is not <coverage>
    | ExtraSource                                 // a second <source> after a non-empty one

  /** The `branch` attribute marks a branch line only when it is exactly "true";
      absent, it reads as "false". */
  predicate IsBranch(line: XmlLine) {
    line.branch == Some("true")
  }
}

=== FILE: easycov.dfy ===
/** The package-level readers `lcov_to_json` and `xml_to_json`, the older
    versions of `Coverage.from_lcov` and `Coverage.from_xml`. They differ from
    those in four ways: a ValueError from `relpath` falls back to the path
    unchanged, the root tag must be `coverage`, a second `<source>` after a
    non-empty one is refused, and a branch line with an empty
    `condition-coverage` is refused with its own message. */
module EasyCov {
  import opened Wrappers
  import opened Documents
  import opened Accumulation
  import opened Collect
  import Coverage

  /** `_relative_filename` with the ValueError caught: never raises. */
  function RelativeFilename(paths: Paths, filename: string, root: Option<string>): (r: string)
    ensures Coverage.NoRoot(root) ==> r == filename
    ensures Coverage.StartsWithDots(r) ==> r == filename
    ensures r != filename ==> paths.relpath(filename, root.value) == Some(r)
    ensures !Coverage.NoRoot(root) && paths.relpath(filename, root.value).Some? &&
            !Coverage.StartsWithDots(paths.relpath(filename, root.value).value) ==>
              r == paths.relpath(filename, root.value).value
  {
    if Coverage.NoRoot(root) then filename
    else
      match paths.relpath(filename, root.value)
      case None => filename
      case Some(newPath) => if !Coverage.StartsWithDots(newPath) then newPath else filename
  }

  /** Where the newer `_relative_filename` gets through the two agree; where it
      raises, this one keeps the path as it was. */
  lemma RelativeFilenameFallback(paths: Paths, filename: string, root: Option<string>)
    ensures Coverage.RelativeFilename(paths, filename, root).Success? ==>
              Coverage.RelativeFilename(paths, filename, root).value == RelativeFilename(paths, filename, root)
    ensures Coverage.RelativeFilename(paths, filename, root).Failure? ==> RelativeFilename(paths, filename, root) == filename
  {
  }

  /** When `relpath` is the inverse of `join`, the name read is always the same
      file: the path as given, or a path inside the root that leads back to
      it. */
  lemma RelativeFilenameSameFile(paths: Paths, filename: string, root: Option<string>)
    requires forall f, s, p :: paths.relpath(f, s) == Some(p) ==> paths.join(Some(s), p) == Some(f)
    ensures var r := RelativeFilename(paths, filename, root);
            || r == filename
            || (!Coverage.NoRoot(root) && !Coverage.StartsWithDots(r) && paths.join(root, r) == Some(filename))
  {
  }

  // ---------------------------------------------------------------- LCOV

  /** One group per record, as in `Coverage.LcovGroups`, but computing the
      path cannot raise. */
  function LcovGroups(paths: Paths, records: seq<LcovRecord>, root: Option<string>): (gs: seq<Group<LcovLine>>)
    ensures |gs| == |records|
    ensures forall i :: 0 <= i < |records| ==> gs[i].lines == records[i].lines && gs[i].path.Success?
    ensures forall i :: 0 <= i < |records| && records[i].lines != [] ==>
              gs[i].path == Success(RelativeFilename(paths, records[i].file, root))
  {
    seq(|records|, i requires 0 <= i < |records| =>
      Group(Success(if records[i].lines == [] then records[i].file
                    else RelativeFilename(paths, records[i].file, root)),
            records[i].lines))
  }

  /** `lcov_to_json`, with the candidate `min(line['hit'], 0)` as written. */
  function LcovToJson(paths: Paths, records: seq<LcovRecord>, root: Option<string>): Report<int> {
    var groups := LcovGroups(paths, records, root);
    assert forall i :: 0 <= i < |groups| ==> !GroupFails(groups[i], Coverage.LcovValue);
    Accumulate(Entries(groups, Coverage.LcovKey, Coverage.LcovValue).value)
  }

  /** The report holds a line for every line of every record, and every value
      is 0. */
  lemma LcovToJsonAllZero(paths: Paths, records: seq<LcovRecord>, root: Option<string>, file: string, line: int)
    ensures Present(LcovToJson(paths, records, root), file, line) <==>
              exists i: nat, j: nat :: Offers(LcovGroups(paths, records, root), Coverage.LcovKey, file, line, i, j)
    ensures Stored(LcovToJson(paths, records, root), file, line) == 0.0
  {
    var groups := LcovGroups(paths, records, root);
    assert forall i :: 0 <= i < |groups| ==> !GroupFails(groups[i], Coverage.LcovValue);
    ReportOfLines(groups, Coverage.LcovKey, Coverage.LcovValue, file, line);
    AccumulateIsMax(Entries(groups, Coverage.LcovKey, Coverage.LcovValue).value, file, line);
  }

  /** Whenever `Coverage.from_lcov` gets through, it builds the same report. */
  lemma LcovToJsonAgrees(paths: Paths, records: seq<LcovRecord>, root: Option<string>)
    requires Coverage.FromLcov(paths, records, root).Success?
    ensures Coverage.FromLcov(paths, records, root).value == LcovToJson(paths, records, root)
  {
    var gs := Coverage.LcovGroups(paths, records, root);
    var hs := LcovGroups(paths, records, root);
    forall i | 0 <= i < |records| ensures gs[i] == hs[i] {
      if records[i].lines != [] {
        RelativeFilenameFallback(paths, records[i].file, root);
      }
    }
    assert gs == hs;
  }

  // ---------------------------------------------------------------- Cobertura XML

  /** The loop over the `<source>` elements, refusing a second one once
      `source_dir` holds anything but "" (an empty element's text, None,
      counts as something). */
  function SourceDir(sources: seq<Option<string>>): (r: Result<Option<string>, ReadError>)
    ensures r.Failure? <==> exists i :: 0 <= i < |sources| - 1 && sources[i] != Some("")
    ensures r.Success? ==> r.value == Coverage.SourceDir(sources)
    decreases |sources|
  {
    if sources == [] then Success(Some(""))
    else
      var init := sources[..|sources| - 1];
      assert forall i :: 0 <= i < |init| ==> init[i] == sources[i];
      match SourceDir(init)
      case Failure(err) => Failure(err)
      case Success(dir) =>
        if dir != Some("") then Failure(ExtraSource)
        else Success(sources[|sources| - 1])
  }

  /** The candidate value of one line as `xml_to_json` computes it. */
  function LineValue(line: XmlLine): (r: Result<real, ReadError>)
    ensures IsBranch(line) && (line.conditionCoverage == None || line.conditionCoverage == Some("")) ==>
              r == Failure(MissingConditionCoverage)
    ensures r.Success? <==> Coverage.LineValue(line).Success?
    ensures r.Success? ==> r == Coverage.LineValue(line)
  {
    if IsBranch(line) then
      match line.conditionCoverage
      case None => Failure(MissingConditionCoverage)
      case Some(text) =>
        if text == "" then Failure(MissingConditionCoverage)
        else Coverage.CoveredFraction(text)
    else Coverage.HitsValue(line)
  }

  /** A class's file; only `join` can raise now, `relpath` no longer does. */
  function ClassPath(paths: Paths, dir: Option<string>, filename: Option<string>, root: Option<string>): Result<string, ReadError> {
    if filename == None then Failure(JoinFailed)
    else
      match paths.join(dir, filename.value)
      case None => Failure(JoinFailed)
      case Some(path) => Success(RelativeFilename(paths, path, root))
  }

  /** The classes as groups. This differs from `Coverage.XmlGroups` only in the
      class path, whose relative name here has the ValueError fallback. The two
      are kept apart, as the two modules keep their own `_relative_filename`, so
      that each reader's groups are stated in terms of its own `ClassPath`. */
  function XmlGroups(paths: Paths, dir: Option<string>, classes: seq<XmlClass>, root: Option<string>): (gs: seq<Group<XmlLine>>)
    ensures |gs| == |classes|
    ensures forall i :: 0 <= i < |classes| ==>
              gs[i] == Group(ClassPath(paths, dir, classes[i].filename, root), classes[i].lines)
  {
    seq(|classes|, i requires 0 <= i < |classes| =>
      Group(ClassPath(paths, dir, classes[i].filename, root), classes[i].lines))
  }

  /** `xml_to_json`. */
  function XmlToJson(paths: Paths, doc: XmlDocument, root: Option<string>): (r: Result<Report<Option<string>>, ReadError>)
    ensures doc.rootTag != "coverage" ==> r == Failure(BadRootTag(doc.rootTag))
    ensures r.Success? ==> SourceDir(doc.sources).Success?
  {
    if doc.rootTag != "coverage" then Failure(BadRootTag(doc.rootTag))
    else
      match SourceDir(doc.sources)
      case Failure(err) => Failure(err)
      case Success(dir) =>
        match Entries(XmlGroups(paths, dir, doc.classes, root), Coverage.LineNumber, LineValue)
        case Failure(err) => Failure(err)
        case Success(es) => Success(Accumulate(es))
  }

  /** The read fails exactly when the root is not `<coverage>`, a second source
      follows a non-empty one, some class has no filename or `join` raises on
      it, or some line value raises. */
  lemma XmlToJsonFailsIff(paths: Paths, doc: XmlDocument, root: Option<string>)
    ensures XmlToJson(paths, doc, root).Failure? <==>
              || doc.rootTag != "coverage"
              || (exists i :: 0 <= i < |doc.sources| - 1 && doc.sources[i] != Some(""))
              || exists i :: 0 <= i < |doc.classes| &&
                   (|| doc.classes[i].filename == None
                    || paths.join(Coverage.SourceDir(doc.sources), doc.classes[i].filename.value) == None
                    || exists j :: 0 <= j < |doc.classes[i].lines| && LineValue(doc.classes[i].lines[j]).Failure?)
  {
    if doc.rootTag == "coverage" && SourceDir(doc.sources).Success? {
      var groups := XmlGroups(paths, Coverage.SourceDir(doc.sources), doc.classes, root);
      assert forall i :: 0 <= i < |doc.classes| ==> groups[i].lines == doc.classes[i].lines;
    }
  }

  /** A successful read holds exactly the (file, number) pairs of the class
      lines, each with the maximum of 0 and the values of those lines. */
  lemma XmlToJsonLines(paths: Paths, doc: XmlDocument, root: Option<string>, file: string, number: Option<string>)
    requires XmlToJson(paths, doc, root).Success?
    ensures var groups := XmlGroups(paths, Coverage.SourceDir(doc.sources), doc.classes, root);
            && (Present(XmlToJson(paths, doc, root).value, file, number) <==>
                  exists i: nat, j: nat :: Offers(groups, Coverage.LineNumber, file, number, i, j))
            && (Present(XmlToJson(paths, doc, root).value, file, number) ==>
                  LineMax(XmlToJson(paths, doc, root).value[file][number], groups, Coverage.LineNumber, LineValue, file, number))
  {
    ReportOfLines(XmlGroups(paths, Coverage.SourceDir(doc.sources), doc.classes, root), Coverage.LineNumber, LineValue, file, number);
  }

  /** When `relpath` never raises, `Coverage.from_xml` builds the same report
      as `xml_to_json` from every document `xml_to_json` accepts. */
  lemma XmlToJsonAgrees(paths: Paths, doc: XmlDocument, root: Option<string>)
    requires forall a, b :: paths.relpath(a, b).Some?
    requires XmlToJson(paths, doc, root).Success?
    ensures Coverage.FromXml(paths, doc, root) == XmlToJson(paths, doc, root)
  {
    var dir := Coverage.SourceDir(doc.sources);
    var gs := Coverage.XmlGroups(paths, dir, doc.classes, root);
    var hs := XmlGroups(paths, dir, doc.classes, root);
    forall i | 0 <= i < |doc.classes| ensures gs[i] == hs[i] {
      var filename := doc.classes[i].filename;
      if filename.Some? && paths.join(dir, filename.value).Some? {
        RelativeFilenameFallback(paths, paths.join(dir, filename.value).value, root);
      }
    }
    assert gs == hs;
    EntriesAgree(gs, Coverage.LineNumber, Coverage.LineValue, LineValue);
  }

  /** Reading the classes in another order, or repeating some, changes
      nothing. */
  lemma XmlToJsonClassOrder(paths: Paths, doc: XmlDocument, classes: seq<XmlClass>, root: Option<string>)
    requires forall c :: c in doc.classes <==> c in classes
    requires XmlToJson(paths, doc, root).Success?
    ensures XmlToJson(paths, doc.(classes := classes), root) == XmlToJson(paths, doc, root)
  {
    var dir := Coverage.SourceDir(doc.sources);
    var gs := XmlGroups(paths, dir, doc.classes, root);
    var hs := XmlGroups(paths, dir, classes, root);
    forall g | g in gs ensures g in hs {
      var i :| 0 <= i < |gs| && gs[i] == g;
      assert doc.classes[i] in classes;
      var k :| 0 <= k < |classes| && classes[k] == doc.classes[i];
      assert hs[k] == g;
    }
    forall g | g in hs ensures g in gs {
      var i :| 0 <= i < |hs| && hs[i] == g;
      assert classes[i] in doc.classes;
      var k :| 0 <= k < |doc.classes| && doc.classes[k] == classes[i];
      assert gs[k] == g;
    }
    ReportOfSameGroups(gs, hs, Coverage.LineNumber, LineValue);
  }

  /** No value `xml_to_json` stores is negative. */
  lemma XmlToJsonNonNegative(paths: Paths, doc: XmlDocument, root: Option<string>)
    requires XmlToJson(paths, doc, root).Success?
    ensures forall f, k :: f in XmlToJson(paths, doc, root).value && k in XmlToJson(paths, doc, root).value[f] ==>
              0.0 <= XmlToJson(paths, doc, root).value[f][k]
  {
    var dir := Coverage.SourceDir(doc.sources);
    AccumulateNonNegative(Entries(XmlGroups(paths, dir, doc.classes, root), Coverage.LineNumber, LineValue).value);
  }
}

=== FILE: empty_ranges.dfy ===
/** Hunks with an empty side. A unified diff writes the start of an empty range
    as the number of the line before it: a new file's source side is `-0,0`,
    and two lines inserted after line 5 with no context are `-5,0 +6,2`.
    `from_patchset` compares the starts as written, so it rejects such hunks;
    reading an empty range as starting one line later accepts them and maps
    the inserted lines to None. */
module EmptyRanges {
  import opened Wrappers
  import opened DiffMapper
  import opened DiffMapperLemmas

  /** Where a range begins: one line after the written start when it is
      empty. */
  function RangeStart(start: int, length: int): int {
    if length == 0 then start + 1 else start
  }

  function NormalizeHunk(hunk: Hunk): Hunk {
    hunk.(sourceStart := RangeStart(hunk.sourceStart, hunk.sourceLength),
          targetStart := RangeStart(hunk.targetStart, hunk.targetLength))
  }

  function NormalizeFile(file: PatchedFile): PatchedFile {
    file.(hunks := seq(|file.hunks|, i requires 0 <= i < |file.hunks| => NormalizeHunk(file.hunks[i])))
  }

  function NormalizeFiles(files: seq<PatchedFile>): seq<PatchedFile> {
    seq(|files|, j requires 0 <= j < |files| => NormalizeFile(files[j]))
  }

  /** `from_patchset` with `source_start` and `target_start` taken where the
      ranges begin. Every property proved of `FromPatchSet` holds of it, read
      over the normalised hunks. */
  function IntendedFromPatchSet(files: seq<PatchedFile>): Result<Mapping, DiffError> {
    FromPatchSet(NormalizeFiles(files))
  }

  /** No side of any hunk is empty. */
  predicate NoEmptyRange(files: seq<PatchedFile>) {
    forall j, i :: 0 <= j < |files| && 0 <= i < |files[j].hunks| ==>
      files[j].hunks[i].sourceLength != 0 && files[j].hunks[i].targetLength != 0
  }

  /** Where no range is empty, the corrected reading is the one as written. */
  lemma IntendedAgreesWithoutEmptyRanges(files: seq<PatchedFile>)
    requires NoEmptyRange(files)
    ensures IntendedFromPatchSet(files) == FromPatchSet(files)
  {
    forall j | 0 <= j < |files| ensures NormalizeFile(files[j]) == files[j] {
      var hunks := files[j].hunks;
      assert NormalizeFile(files[j]).hunks == hunks by {
        forall i | 0 <= i < |hunks| ensures NormalizeHunk(hunks[i]) == hunks[i] {
          assert hunks[i].sourceLength != 0 && hunks[i].targetLength != 0;
        }
      }
    }
    assert NormalizeFiles(files) == files;
  }

  /** The corrected reading fails exactly when some file has a hunk that starts
      at different distances from the cursors once empty ranges are moved to
      where they begin. */
  lemma IntendedFromPatchSetFailsIff(files: seq<PatchedFile>)
    ensures IntendedFromPatchSet(files).Failure? <==>
              exists j :: 0 <= j < |files| && !FileConsistent(NormalizeFile(files[j]))
  {
    var normal := NormalizeFiles(files);
    FromPatchSetFailsIff(normal);
    if exists j :: 0 <= j < |normal| && !FileConsistent(normal[j]) {
      var j :| 0 <= j < |normal| && !FileConsistent(normal[j]);
      assert 0 <= j < |files| && !FileConsistent(NormalizeFile(files[j]));
    }
    if exists j :: 0 <= j < |files| && !FileConsistent(NormalizeFile(files[j])) {
      var j :| 0 <= j < |files| && !FileConsistent(NormalizeFile(files[j]));
      assert !FileConsistent(normal[j]);
    }
  }

  // ---------------------------------------------------------------------------
  // A new file

  /** The lines of a new file of `n` lines: each has a target number, 1 to `n`,
      and no source number. */
  function AddedLines(n: nat): (lines: seq<HunkLine>)
    ensures |lines| == n
    ensures forall k :: 0 <= k < n ==> lines[k] == HunkLine(None, Some(k + 1))
  {
    seq(n, k requires 0 <= k < n => HunkLine(None, Some(k + 1)))
  }

  /** The section a diff has for a file it creates: `@@ -0,0 +1,n @@`. */
  function NewFile(source: string, target: string, n: nat): PatchedFile {
    PatchedFile(source, target, [Hunk(0, 0, 1, n, AddedLines(n))])
  }

  /** As written, the section of a new file is refused: its source start 0 is 0
      lines past the source cursor, while its target start 1 is 1 line past
      the target cursor. */
  lemma NewFileRejected(source: string, target: string, n: nat)
    ensures FromPatchSet([NewFile(source, target, n)]).Failure?
  {
    var files := [NewFile(source, target, n)];
    assert !HunkConsistent(files[0].hunks, 0);
    FromPatchSetFailsIff(files);
  }

  /** Added lines after an addition row add nothing. */
  lemma {:induction false} AddedLinesKeepRows(rows: seq<Row>, source: string, lines: seq<HunkLine>)
    requires rows != [] && rows[|rows| - 1].sourceLine.None?
    requires forall k :: 0 <= k < |lines| ==> lines[k].sourceLineNo.None? && lines[k].targetLineNo.Some?
    ensures AddLineRows(rows, source, lines) == rows
    decreases |lines|
  {
    if lines != [] {
      assert AddRow(rows, Row(lines[0].targetLineNo.value, source, None)) == rows;
      AddedLinesKeepRows(rows, source, lines[1..]);
    }
  }

  /** The rows the corrected reading builds for a new file of `n > 0` lines:
      the opening row, one addition row from line 1, and the trailing row
      after the last line. */
  lemma NewFileRows(source: string, target: string, n: nat)
    requires n > 0
    ensures IntendedFromPatchSet([NewFile(source, target, n)]) ==
              Success(map[target := [Row(0, source, Some(0)), Row(1, source, None), Row(n + 1, source, Some(1))]])
  {
    var file := NormalizeFile(NewFile(source, target, n));
    assert file.hunks == [Hunk(1, 0, 1, n, AddedLines(n))];
    assert NormalizeFiles([NewFile(source, target, n)]) == [file];
    var lines := AddedLines(n);
    var lead := [Row(0, source, Some(0))];
    assert AddRow([], Row(0, source, Some(0))) == lead;
    var body := lead + [Row(1, source, None)];
    assert AddRow(lead, Row(1, source, None)) == body;
    AddedLinesKeepRows(body, source, lines[1..]);
    assert AddLineRows(lead, source, lines) == body;
    var rows := body + [Row(n + 1, source, Some(1))];
    assert rows == [Row(0, source, Some(0)), Row(1, source, None), Row(n + 1, source, Some(1))];
    assert AddRow(body, Row(n + 1, source, Some(1))) == rows;
    assert WalkHunks(body, file, 1, 1, 1 + n) == Success(rows);
    assert WalkHunks([], file, 0, 0, 0) == Success(rows);
    assert PatchFile(map[], file) == Success(map[target := rows]);
    assert PatchFiles(map[target := rows], []) == Success(map[target := rows]);
    assert PatchFiles(map[], [file]) == Success(map[target := rows]);
    assert FromPatchSet([file]) == PatchFiles(map[], [file]);
  }

  /** With the corrected reading, a new file of `n > 0` lines builds, and every
      one of its lines maps to (source, None): none of them has an old line. */
  lemma NewFileMapsToNone(source: string, target: string, n: nat, line: int)
    requires n > 0 && 1 <= line <= n
    ensures IntendedFromPatchSet([NewFile(source, target, n)]).Success?
    ensures Get(IntendedFromPatchSet([NewFile(source, target, n)]).value, target, line) == (source, None)
  {
    NewFileRows(source, target, n);
    var rows := [Row(0, source, Some(0)), Row(1, source, None), Row(n + 1, source, Some(1))];
    assert RowsSorted(rows);
    GetIsLastAtMost(rows, target, line);
    assert rows[..2] == [Row(0, source, Some(0)), Row(1, source, None)];
    assert LastAtMost(rows, line) == 1;
  }

  // ---------------------------------------------------------------------------
  // An insertion with no context

  /** `@@ -5,0 +6,2 @@`: two lines inserted after line 5, as `diff -U0`
      writes it. */
  function BareInsertion(): PatchedFile {
    PatchedFile("a.py", "a.py", [Hunk(5, 0, 6, 2, [HunkLine(None, Some(6)), HunkLine(None, Some(7))])])
  }

  /** As written the insertion is refused: its source start 5 and target
      start 6 lie at different distances from the cursors (0, 0). */
  lemma BareInsertionRejected()
    ensures FromPatchSet([BareInsertion()]).Failure?
  {
    var files := [BareInsertion()];
    assert !HunkConsistent(files[0].hunks, 0);
    FromPatchSetFailsIff(files);
  }

  /** Read correctly, the insertion gives the opening row, an addition row at
      line 6 and a row sending line 8 back to line 6. */
  lemma BareInsertionRows()
    ensures IntendedFromPatchSet([BareInsertion()]) ==
              Success(map["a.py" := [Row(0, "a.py", Some(0)), Row(6, "a.py", None), Row(8, "a.py", Some(6))]])
  {
    var file := NormalizeFile(BareInsertion());
    assert file.hunks == [Hunk(6, 0, 6, 2, [HunkLine(None, Some(6)), HunkLine(None, Some(7))])];
    assert NormalizeFiles([BareInsertion()]) == [file];
    var lines := file.hunks[0].lines;
    var lead := [Row(0, "a.py", Some(0))];
    var body := lead + [Row(6, "a.py", None)];
    assert AddRow(lead, Row(6, "a.py", None)) == body;
    assert AddRow(body, Row(7, "a.py", None)) == body;
    assert lines[1..][1..] == [];
    assert AddLineRows(lead, "a.py", lines) == body;
    var rows := body + [Row(8, "a.py", Some(6))];
    assert rows == [Row(0, "a.py", Some(0)), Row(6, "a.py", None), Row(8, "a.py", Some(6))];
    assert WalkHunks(body, file, 1, 6, 8) == Success(rows);
    assert WalkHunks([], file, 0, 0, 0) == Success(rows);
    assert PatchFile(map[], file) == Success(map["a.py" := rows]);
    assert PatchFiles(map[], [file]) == Success(map["a.py" := rows]);
    assert FromPatchSet([file]) == PatchFiles(map[], [file]);
  }

  /** Read correctly, lines before 6 keep their numbers, the inserted lines 6
      and 7 are new, and every line from 8 on is the old line two before it. */
  lemma BareInsertionLookups(line: int)
    ensures IntendedFromPatchSet([BareInsertion()]).Success?
    ensures Get(IntendedFromPatchSet([BareInsertion()]).value, "a.py", line) ==
              if line < 6 then ("a.py", Some(line))
              else if line < 8 then ("a.py", None)
              else ("a.py", Some(line - 2))
  {
    BareInsertionRows();
    var rows := [Row(0, "a.py", Some(0)), Row(6, "a.py", None), Row(8, "a.py", Some(6))];
    assert RowsSorted(rows);
    assert rows[..2] == [rows[0], rows[1]] && rows[..2][..1] == [rows[0]];
    GetIsLastAtMost(rows, "a.py", line);
  }
}

=== FILE: numerals.dfy ===
/** Decimal text as the readers see it: the ASCII digit and whitespace classes
    of Python 2's `re` (`\d`, `\s` on byte strings), and the builtin `int()`
    applied to an attribute string. */
module Numerals {
  import opened Wrappers

  predicate IsDigit(c: char) {
    '0' <= c <= '9'
  }

  /** `\s` without the Unicode flag: space, tab, newline, return, vertical tab
      and form feed. `int()` of a byte string skips the same set (C's
      `isspace`). */
  predicate IsSpace(c: char) {
    c == ' ' || c == '\t' || c == '\n' || c == '\r' || c == '\U{000B}' || c == '\U{000C}'
  }

  predicate AllDigits(s: string) {
    forall i :: 0 <= i < |s| ==> IsDigit(s[i])
  }

  predicate AllSpace(s: string) {
    forall i :: 0 <= i < |s| ==> IsSpace(s[i])
  }

  /** The length of the longest prefix of `s` made of digits. */
  function DigitRun(s: string): (n: nat)
    ensures n <= |s| && AllDigits(s[..n])
    ensures n < |s| ==> !IsDigit(s[n])
    decreases |s|
  {
    if s == [] || !IsDigit(s[0]) then 0
    else
      var n := 1 + DigitRun(s[1..]);
      assert s[..n] == [s[0]] + s[1..][..n - 1];
      n
  }

  /** The length of the longest prefix of `s` made of whitespace. */
  function SpaceRun(s: string): (n: nat)
    ensures n <= |s| && AllSpace(s[..n])
    ensures n < |s| ==> !IsSpace(s[n])
    decreases |s|
  {
    if s == [] || !IsSpace(s[0]) then 0
    else
      var n := 1 + SpaceRun(s[1..]);
      assert s[..n] == [s[0]] + s[1..][..n - 1];
      n
  }

  /** A maximal run is exactly the part before the first non-digit. */
  lemma {:induction false} DigitRunOf(a: string, b: string)
    requires AllDigits(a)
    requires b == [] || !IsDigit(b[0])
    ensures DigitRun(a + b) == |a|
    decreases |a|
  {
    if a == [] {
      assert a + b == b;
    } else {
      assert (a + b)[1..] == a[1..] + b;
      DigitRunOf(a[1..], b);
    }
  }

  lemma {:induction false} SpaceRunOf(a: string, b: string)
    requires AllSpace(a)
    requires b == [] || !IsSpace(b[0])
    ensures SpaceRun(a + b) == |a|
    decreases |a|
  {
    if a == [] {
      assert a + b == b;
    } else {
      assert (a + b)[1..] == a[1..] + b;
      SpaceRunOf(a[1..], b);
    }
  }

  function DigitValue(c: char): nat
    requires IsDigit(c)
  {
    (c as int) - ('0' as int)
  }

  function DigitChar(d: nat): (c: char)
    requires d < 10
    ensures IsDigit(c) && DigitValue(c) == d
  {
    ('0' as int + d) as char
  }

  /** The number a string of decimal digits denotes (leading zeros allowed). */
  function DecimalValue(s: string): nat
    requires AllDigits(s)
    decreases |s|
  {
    if s == [] then 0
    else DecimalValue(s[..|s| - 1]) * 10 + DigitValue(s[|s| - 1])
  }

  /** The shortest decimal spelling of `n`. */
  function ShowNat(n: nat): (s: string)
    ensures |s| > 0 && AllDigits(s)
    decreases n
  {
    if n < 10 then [DigitChar(n)] else ShowNat(n / 10) + [DigitChar(n % 10)]
  }

  /** Reading back a spelled-out number gives the number. */
  lemma {:induction false} DecimalValueOfShowNat(n: nat)
    ensures DecimalValue(ShowNat(n)) == n
    decreases n
  {
    if n >= 10 {
      var s := ShowNat(n);
      assert s[..|s| - 1] == ShowNat(n / 10);
      DecimalValueOfShowNat(n / 10);
    }
  }

  /** `str.strip()` with the whitespace above. */
  function Strip(s: string): (t: string)
    ensures |t| <= |s|
    ensures t != [] ==> !IsSpace(t[0]) && !IsSpace(t[|t| - 1])
    decreases |s|
  {
    if s == [] then s
    else if IsSpace(s[0]) then Strip(s[1..])
    else if IsSpace(s[|s| - 1]) then Strip(s[..|s| - 1])
    else s
  }

  /** Python 2's `int(s)` for a byte string: surrounding whitespace, an optional
      sign, more whitespace after a sign, and one or more decimal digits;
      anything else raises (None). */
  function ParseInt(s: string): Option<int> {
    ParseStripped(Strip(s))
  }

  /** `s` without its leading whitespace. */
  function SkipSpace(s: string): string
    decreases |s|
  {
    if s != [] && IsSpace(s[0]) then SkipSpace(s[1..]) else s
  }

  /** `int()` once the surrounding whitespace is gone. The sign is read by
      `PyOS_strtol`, and `PyOS_strtoul`, which reads the digits, skips
      whitespace first, so "- 5" is -5. */
  function ParseStripped(t: string): Option<int> {
    var negative := |t| > 0 && t[0] == '-';
    var unsigned := if |t| > 0 && (t[0] == '-' || t[0] == '+') then t[1..] else t;
    var body := SkipSpace(unsigned);
    if |body| > 0 && AllDigits(body) then
      Some(if negative then -(DecimalValue(body) as int) else DecimalValue(body))
    else
      None
  }

  /** Python's `str(n)` for an int. */
  function ShowInt(n: int): string {
    if n < 0 then "-" + ShowNat(-n) else ShowNat(n)
  }

  /** `int(str(n)) == n`: the attribute a writer emits for `n` reads back as `n`,
      with or without surrounding whitespace. */
  lemma ParseIntShowInt(n: int, before: string, after: string)
    requires AllSpace(before) && AllSpace(after)
    ensures ParseInt(before + ShowInt(n) + after) == Some(n)
  {
    var shown := ShowInt(n);
    if n < 0 {
      assert shown[0] == '-' && shown[|shown| - 1] == ShowNat(-n)[|ShowNat(-n)| - 1];
    }
    StripAround(before, shown, after);
    ParseStrippedShowInt(n);
  }

  lemma ParseStrippedShowInt(n: int)
    ensures ParseStripped(ShowInt(n)) == Some(n)
  {
    if n < 0 {
      DecimalValueOfShowNat(-n);
      ParseStrippedNegative(ShowNat(-n));
    } else {
      DecimalValueOfShowNat(n);
      ParseStrippedDigits(ShowNat(n));
    }
  }

  /** Digits alone read as their value. */
  lemma ParseStrippedDigits(digits: string)
    requires digits != [] && AllDigits(digits)
    ensures ParseStripped(digits) == Some(DecimalValue(digits))
  {
    assert IsDigit(digits[0]) && !IsSpace(digits[0]);
    assert SkipSpace(digits) == digits;
  }

  /** Digits after a minus sign read as the negated value. */
  lemma ParseStrippedNegative(digits: string)
    requires digits != [] && AllDigits(digits)
    ensures ParseStripped("-" + digits) == Some(-(DecimalValue(digits) as int))
  {
    var t := "-" + digits;
    assert t[0] == '-' && t[1..] == digits;
    assert IsDigit(digits[0]) && !IsSpace(digits[0]);
    assert SkipSpace(digits) == digits;
  }

  /** Whitespace between the sign and the digits is allowed: `int("- 5")` is
      -5 and `int("+ 5")` is 5. */
  lemma ParseIntSpaceAfterSign(n: nat, gap: string)
    requires AllSpace(gap)
    ensures ParseInt("-" + gap + ShowNat(n)) == Some(-(n as int))
    ensures ParseInt("+" + gap + ShowNat(n)) == Some(n)
  {
    var digits := ShowNat(n);
    SpaceRunOf(gap, digits);
    DecimalValueOfShowNat(n);
    SignedParse('-', gap, digits);
    SignedParse('+', gap, digits);
  }

  /** A sign, whitespace and digits: stripping leaves the text alone, and the
      digits are what remains after the sign and the gap. */
  lemma SignedParse(sign: char, gap: string, digits: string)
    requires sign == '-' || sign == '+'
    requires AllSpace(gap) && digits != [] && AllDigits(digits)
    ensures ParseInt([sign] + gap + digits) ==
              Some(if sign == '-' then -(DecimalValue(digits) as int) else DecimalValue(digits))
  {
    var t := [sign] + gap + digits;
    assert t[0] == sign && t[|t| - 1] == digits[|digits| - 1];
    StripTrimmed(t);
    assert t[1..] == gap + digits;
    SkipSpaceOf(gap, digits);
  }

  /** Text that neither starts nor ends with whitespace is left as it is. */
  lemma StripTrimmed(t: string)
    requires t != [] && !IsSpace(t[0]) && !IsSpace(t[|t| - 1])
    ensures Strip(t) == t
  {
  }

  /** Skipping the whitespace before some digits leaves the digits. */
  lemma {:induction false} SkipSpaceOf(gap: string, digits: string)
    requires AllSpace(gap) && digits != [] && AllDigits(digits)
    ensures SkipSpace(gap + digits) == digits
    decreases |gap|
  {
    if gap == [] {
      assert gap + digits == digits;
      assert IsDigit(digits[0]);
    } else {
      assert (gap + digits)[0] == gap[0];
      assert (gap + digits)[1..] == gap[1..] + digits;
      SkipSpaceOf(gap[1..], digits);
    }
  }

  /** Blank text, the empty string included, is not a number. */
  lemma ParseIntBlank(s: string)
    requires AllSpace(s)
    ensures ParseInt(s) == None
  {
    StripBlank(s);
  }

  lemma {:induction false} StripBlank(s: string)
    requires AllSpace(s)
    ensures Strip(s) == []
    decreases |s|
  {
    if s != [] {
      assert IsSpace(s[0]);
      StripBlank(s[1..]);
    }
  }

  /** Stripping removes exactly the surrounding whitespace of a string that
      starts and ends with a non-space. */
  lemma {:induction false} StripAround(before: string, s: string, after: string)
    requires AllSpace(before) && AllSpace(after)
    requires s != [] && !IsSpace(s[0]) && !IsSpace(s[|s| - 1])
    ensures Strip(before + s + after) == s
    decreases |before| + |after|
  {
    var whole := before + s + after;
    if before != [] {
      assert whole[0] == before[0];
      assert whole[1..] == before[1..] + s + after;
      StripAround(before[1..], s, after);
    } else if after != [] {
      assert whole == s + after;
      assert whole[0] == s[0];
      assert whole[|whole| - 1] == after[|after| - 1];
      assert whole[..|whole| - 1] == before + s + after[..|after| - 1];
      StripAround(before, s, after[..|after| - 1]);
    } else {
      assert whole == s;
    }
  }
}

=== FILE: wrappers.dfy ===
/** Option and Result, the failure-carrying shapes used throughout the model.
    A Python exception becomes a `Failure` carrying the error that was raised. */
module Wrappers {

  datatype Option<+T> = None | Some(value: T)

  datatype Result<+R, +E> = Success(value: R) | Failure(error: E)
}
